=== FILE: README.md ===
# WebCeph landmark evaluation core, modelled in Dafny

This project models three pieces of the WebCeph cephalometric analysis tool:

- **The landmark data model** (`case-wizard.d.ts`) — module `Landmarks` in `landmarks.dfy`. It holds the landmark kinds, units and component trees, the well-formedness those declarations encode, evaluated values, the nine clinical findings, analysis definitions and the five step states.
- **The analyses slice of the workspace store** (`src/store/reducers/workspace/analyses.ts`). The load-status, last-used and summary reducers are module `AnalysesReducers` in `reducers.dfy`. The step-resolution selectors are module `Resolution` in `resolution.dfy`. From the ordered steps of the active analysis, the manually placed landmark values and the skipped flags, the selectors decide:
  - whether a step's manual mapping is complete;
  - whether the step can be mapped automatically (a recursion over its component tree);
  - whether it can be computed, with delegation to equal steps;
  - its lifecycle state, by a fixed precedence;
  - the values handed to the analysis's interpretation.
- **The angle view's construction** (`src/components/GeoViewer/Angle/index.tsx`) — module `AngleConstruction` in `angle.dfy`. Given two vectors and the visible area, it draws one of:
  - nothing;
  - the two segments and an arc;
  - one or two extensions to the intersection point;
  - a line parallel to the first vector.

Supporting modules: `Wrappers` (`wrappers.dfy`: `Option`, `Result`) and `Seqs` (`seqs.dfy`: `Find`, `Filter` and `KeyBy`, the lodash `find`, `filter`/`reject` and `keyBy`). Their meaning is stated as contracts and lemmas: first match for `find`; membership, multiplicity and order for `filter`; last-wins for `keyBy`.

The step helpers of the analyses package are not part of this model: `getStepsForAnalysis`, `areEqualSteps`, `areEqualSymbols`, `isStepManual`, `isStepComputable`, `isStepMappable`, `tryMap` and `tryCalculate`. The same holds for each analysis's `interpret` and for the math utilities: `getIntersectionPoint`, `isPointInSegment`, `isPointCloserTo`, `isPointWithinRect` and `getSlope`. They enter the model as function values:
- the records `Resolution.Helpers` and `AngleConstruction.MathHelpers`;
- a `withinRect` membership test standing for the bounding rectangle;
- a `registry` function standing for the dynamic `require` of analysis modules.
- the `handleActions` helper of the store utilities, which builds each reducer from its handler map and initial state, is not part of this model either. It is read with redux-actions semantics: the second argument is the initial state, and an action without a handler returns the state unchanged.

Every property below holds whatever those functions are.

Notes on how the model reads the code:
- `StepState` has five values. The declaration lists four, and the state selector also produces `skipped`.
- An unknown analysis id makes the source's `require` throw. The model returns `Failure(UnknownAnalysis(id))`, which is distinct from "no analysis selected" (`Success(None)`).
- The state map and the calculated-value map are computed independently in the source. Nothing here claims that a step is `done` exactly when it has a value.

## Model

| member | source | states |
|---|---|---|
| Landmarks.LinearUnitOf | case-wizard.d.ts:39-49 | a well-formed line or distance carries a linear unit, and this is it |
| Landmarks.LinearLandmarkHasPointComponents | case-wizard.d.ts:39-49 | every component of a well-formed line or distance is a well-formed point |
| Landmarks.AngularUnitOf | case-wizard.d.ts:51-55 | a well-formed angle carries an angular unit, and this is it |
| Landmarks.AngleComponentKind | case-wizard.d.ts:51-55 | the components of a well-formed angle are all points or all lines |
| Landmarks.CalculationArguments | case-wizard.d.ts:27-32 | a custom calculation receives one number per component, in declaration order; arguments exist exactly when every component has a value |
| Landmarks.Calculate | case-wizard.d.ts:27-32 | a custom calculation yields a value exactly when every component has one, and that value is the calculation applied to the component values in declaration order |
| Landmarks.EvaluatedValueIsExactlyOne | case-wizard.d.ts:62-80 | an evaluated value is exactly one of a point, a line or a number |
| Landmarks.AllAnalysisResults | case-wizard.d.ts:83-101 | the findings are nine distinct tags and every finding is one of them |
| AnalysesReducers.WriteStatus | src/store/reducers/workspace/analyses.ts:36-45 | spreading the image type's old entries writes one entry and keeps all others |
| AnalysesReducers.ReduceLoadStatus | src/store/reducers/workspace/analyses.ts:34-71 | a load action writes only its `[imageType][analysisId]` entry: (loading, no error) on request, (not loading, the error) on failure, (not loading, no error) on success; every other entry and every other action leaves the table unchanged |
| AnalysesReducers.ReduceLastUsed | src/store/reducers/workspace/analyses.ts:75-88 | a request records its analysis id for its image type only; other image types and other actions are unchanged |
| AnalysesReducers.ReduceSummaryShown | src/store/reducers/workspace/analyses.ts:89-91 | the toggle action flips the flag; other actions keep it |
| AnalysesReducers.ToggleIsInvolution | src/store/reducers/workspace/analyses.ts:90 | toggling twice restores the flag |
| AnalysesReducers.Reduce | src/store/reducers/workspace/analyses.ts:73-92 | only the toggle changes the summary flag, only a request changes last-used ids, only load actions change the status table |
| AnalysesReducers.RequestUpdatesBothSlices | src/store/reducers/workspace/analyses.ts:35-88 | a request marks its analysis loading with no error for its image type and makes it that image type's last-used analysis; the summary flag is untouched |
| AnalysesReducers.FetchResultUpdatesStatusOnly | src/store/reducers/workspace/analyses.ts:47-71 | a failed fetch ends loading and records its error, a successful one ends loading with no error, for its analysis and image type; last-used ids and the summary flag are untouched |
| AnalysesReducers.LastUsedStaysTotal | src/store/reducers/workspace/analyses.ts:82-88 | every image type starts with a last-used analysis and keeps one after any action |
| Resolution.ActiveAnalysis | src/store/reducers/workspace/analyses.ts:103-111 | no selected id gives no analysis; an id the registry lacks fails with that id; a known id gives its definition |
| Resolution.ActiveAnalysisSteps | src/store/reducers/workspace/analyses.ts:113-116 | without an active analysis there are no steps; with one, its steps with duplicates removed |
| Resolution.AllPossibleActiveAnalysisSteps | src/store/reducers/workspace/analyses.ts:118-121 | without an active analysis there are no step occurrences; with one, every occurrence, duplicates kept |
| Resolution.FindStepBySymbol | src/store/reducers/workspace/analyses.ts:123-132 | the result, if any, has the symbol and is the first step with it in the chosen list, whether all occurrences or the deduplicated steps; none exactly when no step in that list has it |
| Resolution.FoundStepIsUnique | case-wizard.d.ts:15-18 | when symbols identify steps, the step found is the only one with its symbol |
| Resolution.ManualSteps | src/store/reducers/workspace/analyses.ts:134-137 | the manual steps are exactly the steps the helper calls manual, each kept as often as it occurs |
| Resolution.ManualStepsKeepOrder | src/store/reducers/workspace/analyses.ts:134-137 | the manual steps keep step order: those of a concatenation are those of each part in turn, and a single step contributes itself exactly when it is manual |
| Resolution.ExpectedNextManualLandmark | src/store/reducers/workspace/analyses.ts:142-149 | the next landmark is a manual step without a manual value that comes at or before every such step; none exactly when every manual step has a value |
| Resolution.FindEqualComponents | src/store/reducers/workspace/analyses.ts:151-157 | the equal components are exactly the occurrences the helpers call equal steps with unequal symbols |
| Resolution.EqualComponentsHaveOtherSymbols | src/store/reducers/workspace/analyses.ts:154 | when symbol comparison compares symbols, no equal component shares the step's symbol |
| Resolution.EqualComponentsAreNotTransitive | src/store/reducers/workspace/analyses.ts:151-157 | the lookup is pairwise: a chain A~B~C does not make C an equal component of A |
| Resolution.ManualMappingCompleteness | src/store/reducers/workspace/analyses.ts:164-172 | a step without a manual mapping is complete; one with a manual mapping is complete exactly when a value, of any kind, sits under its symbol |
| Resolution.ManualMappingCompleteMonotone | src/store/reducers/workspace/analyses.ts:164-172 | placing more manual values never makes a complete manual mapping incomplete |
| Resolution.EligibilityBaseCases | src/store/reducers/workspace/analyses.ts:179-188 | a manual step is never eligible for automatic mapping; a non-manual step without components always is |
| Resolution.EligibilityMonotone | src/store/reducers/workspace/analyses.ts:176-192 | automatic-mapping eligibility only grows as manual values are placed |
| Resolution.EligibleIffDependenciesComplete | src/store/reducers/workspace/analyses.ts:176-192 | a non-manual step is eligible exactly when every manual landmark reached through non-manual components has a complete manual mapping |
| Resolution.ManualValue | src/store/reducers/workspace/analyses.ts:201 | the fallback value is present exactly when a value sits under the symbol, and is that value |
| Resolution.ManualValueAsWritten | src/store/reducers/workspace/analyses.ts:201 | as written, the fallback is present exactly when a truthy value sits under the symbol |
| Resolution.MappedValueAsWritten | src/store/reducers/workspace/analyses.ts:194-203 | as written, an eligible step takes the helpers' automatic mapping; any other step has a mapped value exactly when a truthy manual value sits under its symbol, and it is that value |
| Resolution.AsWrittenAgreesWithoutZero | src/store/reducers/workspace/analyses.ts:194-203 | when no placed value is the number zero, the code as written and the corrected fallback give every step the same mapped value |
| Resolution.ZeroManualValueIsLost | src/store/reducers/workspace/analyses.ts:201 | as written, a manual step whose placed value is zero has a complete manual mapping but no mapped value |
| Resolution.MappedValue | src/store/reducers/workspace/analyses.ts:194-203 | an eligible step takes the helpers' automatic mapping; any other step has a mapped value exactly when a manual value sits under its symbol, and it is that value |
| Resolution.ManualStepCompletenessAgrees | src/store/reducers/workspace/analyses.ts:210-218 | for a manual step, mapping completeness agrees with manual mapping completeness, and its mapped value is its manual value |
| Resolution.ComputationEligibleIff | src/store/reducers/workspace/analyses.ts:220-232 | a step can be computed exactly when it is computable and each component has a complete mapping or an occurrence under another symbol that the helpers call equal has one |
| Resolution.DelegationToEqualStep | src/store/reducers/workspace/analyses.ts:220-232 | a component is available for computation once any equal step under another symbol has a complete mapping |
| Resolution.CalculatedValue | src/store/reducers/workspace/analyses.ts:234-242 | a calculated value exists only for a computable step eligible for computation, and is then the helpers' calculation |
| Resolution.CompletenessRequirements | src/store/reducers/workspace/analyses.ts:249-268 | a step neither mappable nor computable is complete; a complete computable step has a value and available components; a complete mappable step has a mapped value |
| Resolution.StateOfStep | src/store/reducers/workspace/analyses.ts:280-290 | precedence current > done > skipped > pending; no step is ever evaluating |
| Resolution.StepStates | src/store/reducers/workspace/analyses.ts:275-292 | every step's symbol has a state and every key is some step's symbol |
| Resolution.OnlyExpectedLandmarkIsCurrent | src/store/reducers/workspace/analyses.ts:280-290 | a current symbol is the symbol of the expected next landmark, which is a manual step; that symbol is current whenever there is one |
| Resolution.AtMostOneCurrent | src/store/reducers/workspace/analyses.ts:282-283 | at most one symbol is in the current state |
| Resolution.StatesOfIdentifiedSteps | src/store/reducers/workspace/analyses.ts:281 | when symbols identify steps, each step's entry is its own state |
| Resolution.AnalysisCompleteness | src/store/reducers/workspace/analyses.ts:314-323 | without an active analysis it is never complete; with one, it is complete exactly when the landmark of every component is complete |
| Resolution.AllCalculatedValues | src/store/reducers/workspace/analyses.ts:325-334 | every deduplicated step's symbol has an entry, each entry is the calculated value of a step with that symbol, and it is the value of the last step with that symbol |
| Resolution.AllGeoObjects | src/store/reducers/workspace/analyses.ts:302-308 | every step occurrence's symbol has an entry, each entry is the mapped value of an occurrence with that symbol, and it is the value of the last occurrence with that symbol |
| Resolution.CategorizedAnalysisResults | src/store/reducers/workspace/analyses.ts:336-346 | without an active analysis there are no results; with one, the results are its interpretation of the calculated values and the geometrical objects |
| Resolution.CanShowSummary | src/store/reducers/workspace/analyses.ts:348-351 | the summary can be shown exactly when there is some result |
| Resolution.Evaluate | src/store/reducers/workspace/analyses.ts:98-351 | evaluation fails exactly for an unknown id; otherwise the analysis is set exactly when an id is selected, and the summary shows exactly when results exist |
| Resolution.SelectedAnalysisReport | src/store/reducers/workspace/analyses.ts:98-351 | with a registered analysis selected, the report is set and holds its deduplicated steps and every occurrence, the next landmark, the step states, calculated values and objects with an entry per step symbol, the interpretation of those values and objects, completeness exactly when every component's landmark is complete, and the summary flag exactly when results exist |
| Resolution.NoAnalysisSelected | src/store/reducers/workspace/analyses.ts:98-121 | with no analysis selected: not set, no steps, no next landmark, no states, not complete, no results, no summary |
| AngleConstruction.ArcOf | src/components/GeoViewer/Angle/index.tsx:46-71 | no arc exactly when the vectors do not intersect; an arc is centred on the intersection with two vector endpoints other than it as corners |
| AngleConstruction.ArcCorners | src/components/GeoViewer/Angle/index.tsx:50-59 | the corners are the first and the second endpoint, in the order start and end of vector 1 then start and end of vector 2, that differ from the intersection, every other endpoint before the second corner being the intersection; rendering fails exactly when no two endpoints differ from it |
| AngleConstruction.ExtendedVector | src/components/GeoViewer/Angle/index.tsx:86-91 | an extension ends at the intersection; each start coordinate is replaced by the other endpoint's exactly when it equals the intersection's, and kept otherwise; so it starts at the vector's start when the intersection shares no coordinate with it, and at the vector's end when the intersection is its start |
| AngleConstruction.ExtensionStartsAtAnEndpoint | src/components/GeoViewer/Angle/index.tsx:104-109 | for a vector of non-zero length whose line holds the intersection, the extension starts at one of its endpoints, the one other than the intersection when that is an endpoint |
| AngleConstruction.ParallelThrough | src/components/GeoViewer/Angle/index.tsx:136-145 | the parallel starts at the second vector's start, keeps its end abscissa and rises with the given slope |
| AngleConstruction.ParallelLineIsParallel | src/components/GeoViewer/Angle/index.tsx:136-145 | with the first vector's true slope, the parallel line's direction has zero cross product with the first vector's |
| AngleConstruction.Construct | src/components/GeoViewer/Angle/index.tsx:38-154 | nothing is drawn exactly when there is no intersection or it is outside both segments and the rect and closer to vector 1; otherwise both segments are drawn; without the parallel case, a vector is extended exactly when its segment misses the intersection and every extension ends there; in the parallel case there is one parallel line, no extension, and the arc is built against the parallel (the exact line order per case is stated by the case lemmas below) |
| AngleConstruction.NoIntersectionDrawsNothing | src/components/GeoViewer/Angle/index.tsx:38-42 | no intersection draws nothing |
| AngleConstruction.IntersectionInBothSegments | src/components/GeoViewer/Angle/index.tsx:73-84 | an intersection in both segments draws exactly the two segments and their arc |
| AngleConstruction.IntersectionOnlyInSegment1 | src/components/GeoViewer/Angle/index.tsx:86-102 | an intersection only in segment 1 draws segment 1, the extension of vector 2, then segment 2, with the arc between the vectors; vector 2 alone is extended |
| AngleConstruction.IntersectionOnlyInSegment2 | src/components/GeoViewer/Angle/index.tsx:104-119 | an intersection only in segment 2 draws the extension of vector 1, then both segments, with the arc between the vectors; vector 1 alone is extended |
| AngleConstruction.IntersectionInsideRect | src/components/GeoViewer/Angle/index.tsx:120-130 | an intersection in neither segment but inside the rect draws each vector's extension just before its segment, with the arc between the vectors |
| AngleConstruction.OutsideRectCloserToVector1 | src/components/GeoViewer/Angle/index.tsx:131-133 | an intersection outside the rect and closer to vector 1 draws nothing |
| AngleConstruction.ParallelConstruction | src/components/GeoViewer/Angle/index.tsx:134-153 | otherwise segment 1, the parallel line, then segment 2 are drawn; the parallel starts at vector 2's start, keeps its x2, has vector 1's slope, and carries the arc |
| AngleConstruction.CrossingSegmentsExample | src/components/GeoViewer/Angle/index.tsx:73-84 | (0,0)-(10,10) and (0,10)-(10,0) meeting at (5,5) in both: no extension, arc at (5,5) between (0,0) and (10,10) |
| AngleConstruction.ExtendFirstVectorExample | src/components/GeoViewer/Angle/index.tsx:104-119 | (0,0)-(5,0) and (10,0)-(10,10) meeting at (10,0) in segment 2 only: vector 1 alone is extended, to (0,0)-(10,0) |

## Left out

- The bodies of the analyses package's step helpers, each analysis's `interpret`, and the math utilities are not part of this model. They are parameters, so step flattening, deduplication and the interpretation's tolerance of missing values are not modelled.
- `Math.atan2` and the angle between the vectors are left out: that is floating-point trigonometry used only for display.
- Rendering details are left out: attribute spreading, clip-path ids from `uniqueId`, and the arc's radius. The model keeps which lines are drawn, in what role and order, and the arc's centre and corners.
- reselect and lodash `memoize` are left out: caching does not change any result, so the selectors are plain functions.
- NaN is left out: the model has no counterpart of that falsy number, so only zero is treated as falsy.
- Display attributes of landmarks are left out (name and description): no decision depends on them.
- `isSummaryShown`, `getStepState`, `isStepSkippable` and `isStepRemovable` are left out. They are a field read, a map lookup and two aliases of the manual-step helper.
- The image-loading saga and worker messaging are left out: they are concurrency and I/O outside this core.
- The UI wiring modules are left out (App, CephDropzone, the connected and props files): they hold no logic beyond constant lists.
- The store keys and browser-compatibility types are left out: no evaluation logic depends on them.
- AngleConstruction.ArcOf: when fewer than two endpoints differ from the intersection, the source throws a type error while rendering, because it destructures an undefined corner. The model returns the value `RenderFails` instead of modelling the exception.
- Resolution.IsAnalysisComplete: the source hands each entry of `analysis.components` itself to the step-completeness check, although those entries are declared as `AnalysisComponent` wrappers around a landmark. The model checks the wrapped landmark, because the step check reads landmark fields that a wrapper does not carry.
- JavaScript numbers are modelled as `real`, so rounding is not modelled. `AngleConstruction.ParallelThrough`'s slope equation holds exactly here, where the source's `slope * x2 + (y1 - slope * x1)` rounds in double precision.
- AngleConstruction.MathHelpers: `slope` always yields a finite real. Assuming `getSlope` is rise over run, a vertical first vector gives it a zero run, so in the parallel case its parallel line gets an infinite or NaN end ordinate. `Construct` draws a finite line there instead. `AngleConstruction.ParallelLineIsParallel` requires a non-vertical first vector.
- The `visible` flag that placed geometrical values may carry is left out: no selector of this core reads it.
- Resolution.MappedValue: follows the evidently intended fallback rather than the code as written (see Findings). `Resolution.MappedValueAsWritten` models the code.
- Resolution.ManualValue: keeps a placed zero, which line 201 of `analyses.ts` drops. `Resolution.ManualValueAsWritten` models the code.
- Resolution.IsStepMappingComplete, `IsStepComplete`, `HasMappedEquivalent` and `IsEligibleForComputation`: built on the corrected fallback. For a mappable step holding a placed `Number(0.0)`, they count the mapping as complete, where the source does not.
- Resolution.StepStates, `StateOfStep`, `AllGeoObjects`, `IsAnalysisComplete` and `Evaluate`: built on the corrected fallback. For such a step they report `Done` and `Some(Number(0.0))`, where the source reports pending or skipped and `undefined`. `Resolution.AsWrittenAgreesWithoutZero` proves that the two fallbacks agree whenever no placed value is zero.

## Findings

| source | as written | input that shows it | evidently intended | confidence | as-written member | corrected member |
|---|---|---|---|---|---|---|
| src/store/reducers/workspace/analyses.ts:201 | `manual[step.symbol] \|\| undefined` drops any falsy placed value | a manual, mappable step whose placed value is the number 0: its manual mapping is complete, so it is never the next landmark, yet it has no mapped value, so it never becomes done | return whatever value was placed, as the completeness check at line 168 assumes | medium, not executed | Resolution.ZeroManualValueIsLost | Resolution.MappedValue |

=== FILE: angle.dfy ===
/** The construction behind the angle view: given the two vectors of an
    angle and the visible area, it decides which lines to draw (the original
    segments, extensions to the intersection point, or a parallel line) and
    where the angle's arc goes. Drawing attributes and the arc's radius are
    not modelled; coordinates are reals.

    The geometry helpers of the math utilities are not part of this model;
    they arrive as the function values of a `MathHelpers` record, and the
    bounding rectangle is seen only through its membership test. */
module AngleConstruction {
  import opened Wrappers
  import opened Landmarks
  import Seqs

  type Vector = GeometricalLine

  datatype MathHelpers = MathHelpers(
    intersection: (Vector, Vector) -> Option<GeometricalPoint>,  // of the unbounded lines; none when parallel
    isPointInSegment: (GeometricalPoint, Vector) -> bool,
    isPointCloserTo: (GeometricalPoint, Vector, Vector) -> bool,
    slope: Vector -> real)

  datatype Role = SegmentLine | ExtendedLine | ParallelLine

  datatype DrawnLine = DrawnLine(role: Role, vector: Vector)

  /** The angle's arc: drawn around `center`, clipped to the triangle
      `from`, `center`, `to`. `RenderFails` stands for the case where fewer
      than two vector endpoints differ from the intersection: the triangle
      then lacks a corner, and rendering it throws a type error because an
      undefined corner is destructured. */
  datatype Arc = NoArc | ArcAt(center: GeometricalPoint, from: GeometricalPoint, to: GeometricalPoint) | RenderFails

  /** What the view renders: an empty group, or lines plus an arc. */
  datatype Drawing = Empty | Group(lines: seq<DrawnLine>, arc: Arc)

  function Start(v: Vector): GeometricalPoint { GeometricalPoint(v.x1, v.y1) }
  function End(v: Vector): GeometricalPoint { GeometricalPoint(v.x2, v.y2) }

  function Endpoints(v1: Vector, v2: Vector): seq<GeometricalPoint>
  {
    [Start(v1), End(v1), Start(v2), End(v2)]
  }

  function DiffersFrom(i: GeometricalPoint): GeometricalPoint -> bool
  {
    (p: GeometricalPoint) => p != i
  }

  /** The arc for two vectors: none when they do not intersect; otherwise
      centred on the intersection, with its triangle's other corners the
      first two vector endpoints that differ from the intersection (see
      `ArcCorners`). */
  function ArcOf(g: MathHelpers, v1: Vector, v2: Vector): (r: Arc)
    ensures r.NoArc? <==> g.intersection(v1, v2).None?
    ensures r.ArcAt? ==> r.center == g.intersection(v1, v2).value
    ensures r.ArcAt? ==> r.from != r.center && r.to != r.center
    ensures r.ArcAt? ==> r.from in Endpoints(v1, v2) && r.to in Endpoints(v1, v2)
  {
    match g.intersection(v1, v2)
    case None => NoArc
    case Some(i) =>
      var others := Seqs.Filter(Endpoints(v1, v2), DiffersFrom(i));
      if |others| < 2 then RenderFails
      else
        assert others[0] in others && others[1] in others;
        ArcAt(i, others[0], others[1])
  }

  /** Which endpoints become the arc's corners: the first and the second, in
      the order start of `v1`, end of `v1`, start of `v2`, end of `v2`, that
      differ from the intersection; every other endpoint before the second
      corner is the intersection itself. Rendering fails exactly when no two
      endpoints differ from the intersection. */
  lemma ArcCorners(g: MathHelpers, v1: Vector, v2: Vector)
    ensures var r := ArcOf(g, v1, v2);
            var e := Endpoints(v1, v2);
            r.ArcAt? ==>
              exists j, k :: 0 <= j < k < 4 && e[j] == r.from && e[k] == r.to &&
                             forall m :: 0 <= m < k && m != j ==> e[m] == r.center
    ensures var e := Endpoints(v1, v2);
            ArcOf(g, v1, v2).RenderFails? <==>
              && g.intersection(v1, v2).Some?
              && forall j, k :: 0 <= j < k < 4 ==> e[j] == g.intersection(v1, v2).value || e[k] == g.intersection(v1, v2).value
  {
    if g.intersection(v1, v2).Some? {
      var i := g.intersection(v1, v2).value;
      var e := Endpoints(v1, v2);
      Seqs.FilterKeepsTwo(e, DiffersFrom(i));
      if |Seqs.Filter(e, DiffersFrom(i))| >= 2 {
        CornersArePositions(e, i);
      }
    }
  }

  /** The first two points that differ from `i` sit at positions `j < k`,
      and every other position before `k` holds `i`. */
  lemma CornersArePositions(e: seq<GeometricalPoint>, i: GeometricalPoint)
    requires |Seqs.Filter(e, DiffersFrom(i))| >= 2
    ensures var others := Seqs.Filter(e, DiffersFrom(i));
            exists j, k :: 0 <= j < k < |e| && e[j] == others[0] && e[k] == others[1] &&
                           forall m :: 0 <= m < k && m != j ==> e[m] == i
  {
    var j, k := Seqs.FilterFirstTwo(e, DiffersFrom(i));
  }

  /** The extension of `v` to the intersection point `i`. It ends at `i`.
      Its start keeps the vector's first endpoint when `i` shares neither
      coordinate with it, moves to the second endpoint when `i` is the first
      endpoint, and otherwise takes each coordinate from one of the two
      endpoints, decided one coordinate at a time. */
  function ExtendedVector(v: Vector, i: GeometricalPoint): (r: Vector)
    ensures End(r) == i
    ensures v.x1 != i.x && v.y1 != i.y ==> Start(r) == Start(v)
    ensures i == Start(v) ==> Start(r) == End(v)
    ensures (r.x1 == v.x1 || r.x1 == v.x2) && (r.y1 == v.y1 || r.y1 == v.y2)
    ensures r.x1 != v.x1 ==> v.x1 == i.x
    ensures r.y1 != v.y1 ==> v.y1 == i.y
    ensures v.x1 == i.x ==> r.x1 == v.x2
    ensures v.y1 == i.y ==> r.y1 == v.y2
  {
    GeometricalLine(
      if v.x1 == i.x then v.x2 else v.x1,
      if v.y1 == i.y then v.y2 else v.y1,
      i.x,
      i.y)
  }

  /** The line through the start of `v2` with slope `slope`, spanning the
      same x range as `v2`. */
  function ParallelThrough(slope: real, v2: Vector): (r: Vector)
    ensures Start(r) == Start(v2) && r.x2 == v2.x2
    ensures r.y2 - r.y1 == slope * (r.x2 - r.x1)
  {
    var intercept := v2.y1 - slope * v2.x1;
    GeometricalLine(v2.x1, v2.y1, v2.x2, slope * v2.x2 + intercept)
  }

  /** The extension lines of a drawing, in order. */
  function Extensions(lines: seq<DrawnLine>): seq<Vector>
  {
    if |lines| == 0 then []
    else ExtensionOf(lines[0]) + Extensions(lines[1..])
  }

  /** The parallel lines of a drawing, in order. */
  function Parallels(lines: seq<DrawnLine>): seq<Vector>
  {
    if |lines| == 0 then []
    else ParallelOf(lines[0]) + Parallels(lines[1..])
  }

  function ExtensionOf(l: DrawnLine): seq<Vector>
  {
    if l.role == ExtendedLine then [l.vector] else []
  }

  function ParallelOf(l: DrawnLine): seq<Vector>
  {
    if l.role == ParallelLine then [l.vector] else []
  }

  /** The extension and parallel lists hold exactly the vectors drawn in
      those roles: this is what `Extensions` and `Parallels` mean, stated
      once for readers of the contracts that use them. */
  lemma {:induction false} RolesAreTheDrawnLines(lines: seq<DrawnLine>, v: Vector)
    ensures v in Extensions(lines) <==> DrawnLine(ExtendedLine, v) in lines
    ensures v in Parallels(lines) <==> DrawnLine(ParallelLine, v) in lines
  {
    if |lines| > 0 {
      RolesAreTheDrawnLines(lines[1..], v);
      assert lines == [lines[0]] + lines[1..];
    }
  }

  /** The roles of a two-line literal, one line at a time. */
  lemma RolesOfTwo(a: DrawnLine, b: DrawnLine)
    ensures Extensions([a, b]) == ExtensionOf(a) + ExtensionOf(b)
    ensures Parallels([a, b]) == ParallelOf(a) + ParallelOf(b)
  {
    assert Extensions([b]) == ExtensionOf(b) && Parallels([b]) == ParallelOf(b) by {
      assert [b][1..] == [];
    }
    assert [a, b][1..] == [b];
  }

  /** The roles of a three-line literal, one line at a time. */
  lemma RolesOfThree(a: DrawnLine, b: DrawnLine, c: DrawnLine)
    ensures Extensions([a, b, c]) == ExtensionOf(a) + ExtensionOf(b) + ExtensionOf(c)
    ensures Parallels([a, b, c]) == ParallelOf(a) + ParallelOf(b) + ParallelOf(c)
  {
    assert [a, b, c][1..] == [b, c];
    RolesOfTwo(b, c);
  }

  /** The roles of a four-line literal, one line at a time. */
  lemma RolesOfFour(a: DrawnLine, b: DrawnLine, c: DrawnLine, d: DrawnLine)
    ensures Extensions([a, b, c, d]) == ExtensionOf(a) + ExtensionOf(b) + ExtensionOf(c) + ExtensionOf(d)
    ensures Parallels([a, b, c, d]) == ParallelOf(a) + ParallelOf(b) + ParallelOf(c) + ParallelOf(d)
  {
    assert [a, b, c, d][1..] == [b, c, d];
    RolesOfThree(b, c, d);
  }

  /** Whether the parallel-line construction applies: the vectors meet
      outside both segments and outside the visible area, and the meeting
      point is not closer to the first vector. */
  predicate NeedsParallel(g: MathHelpers, withinRect: GeometricalPoint -> bool, v1: Vector, v2: Vector)
  {
    var i := g.intersection(v1, v2);
    && i.Some?
    && !g.isPointInSegment(i.value, v1) && !g.isPointInSegment(i.value, v2)
    && !withinRect(i.value) && !g.isPointCloserTo(i.value, v1, v2)
  }

  /** The angle view's case split. Nothing is drawn when the vectors do not
      meet, or when they meet outside both segments and the visible area
      closer to the first vector (the construction for that case does not
      exist). Otherwise both original segments are drawn, and either each
      vector whose segment does not contain the intersection gets an
      extension ending there and the arc sits at the intersection, or a line
      parallel to the first vector is drawn through the start of the second
      and the arc is built against it. */
  function Construct(g: MathHelpers, withinRect: GeometricalPoint -> bool, v1: Vector, v2: Vector): (r: Drawing)
    ensures r.Empty? <==>
              || g.intersection(v1, v2).None?
              || (var i := g.intersection(v1, v2).value;
                  !g.isPointInSegment(i, v1) && !g.isPointInSegment(i, v2) && !withinRect(i) && g.isPointCloserTo(i, v1, v2))
    ensures r.Group? ==> DrawnLine(SegmentLine, v1) in r.lines && DrawnLine(SegmentLine, v2) in r.lines
    ensures r.Group? && !NeedsParallel(g, withinRect, v1, v2) ==>
              var i := g.intersection(v1, v2).value;
              && Extensions(r.lines) ==
                   (if g.isPointInSegment(i, v1) then [] else [ExtendedVector(v1, i)]) +
                   (if g.isPointInSegment(i, v2) then [] else [ExtendedVector(v2, i)])
              && Parallels(r.lines) == []
              && r.arc == ArcOf(g, v1, v2)
    ensures r.Group? ==> forall e :: e in Extensions(r.lines) ==> End(e) == g.intersection(v1, v2).value
    ensures NeedsParallel(g, withinRect, v1, v2) ==>
              var parallel := ParallelThrough(g.slope(v1), v2);
              && r.Group?
              && Extensions(r.lines) == []
              && Parallels(r.lines) == [parallel]
              && r.arc == ArcOf(g, parallel, v2)
  {
    match g.intersection(v1, v2)
    case None => Empty
    case Some(i) =>
      var seg1 := DrawnLine(SegmentLine, v1);
      var seg2 := DrawnLine(SegmentLine, v2);
      var in1 := g.isPointInSegment(i, v1);
      var in2 := g.isPointInSegment(i, v2);
      if in1 && in2 then
        RolesOfTwo(seg1, seg2);
        Group([seg1, seg2], ArcOf(g, v1, v2))
      else if in1 then
        var ext2 := DrawnLine(ExtendedLine, ExtendedVector(v2, i));
        RolesOfThree(seg1, ext2, seg2);
        Group([seg1, ext2, seg2], ArcOf(g, v1, v2))
      else if in2 then
        var ext1 := DrawnLine(ExtendedLine, ExtendedVector(v1, i));
        RolesOfThree(ext1, seg1, seg2);
        Group([ext1, seg1, seg2], ArcOf(g, v1, v2))
      else if withinRect(i) then
        var ext1 := DrawnLine(ExtendedLine, ExtendedVector(v1, i));
        var ext2 := DrawnLine(ExtendedLine, ExtendedVector(v2, i));
        RolesOfFour(ext1, seg1, ext2, seg2);
        Group([ext1, seg1, ext2, seg2], ArcOf(g, v1, v2))
      else if g.isPointCloserTo(i, v1, v2) then
        Empty
      else
        var parallel := ParallelThrough(g.slope(v1), v2);
        var par := DrawnLine(ParallelLine, parallel);
        RolesOfThree(seg1, par, seg2);
        Group([seg1, par, seg2], ArcOf(g, parallel, v2))
  }

  /** Vectors without an intersection (parallel ones) draw nothing. */
  lemma NoIntersectionDrawsNothing(g: MathHelpers, withinRect: GeometricalPoint -> bool, v1: Vector, v2: Vector)
    requires g.intersection(v1, v2).None?
    ensures Construct(g, withinRect, v1, v2) == Empty
  {
  }

  /** An intersection inside both segments draws the two segments and the
      arc between them, with no extension and no parallel line. */
  lemma IntersectionInBothSegments(g: MathHelpers, withinRect: GeometricalPoint -> bool, v1: Vector, v2: Vector)
    requires g.intersection(v1, v2).Some?
    requires g.isPointInSegment(g.intersection(v1, v2).value, v1)
    requires g.isPointInSegment(g.intersection(v1, v2).value, v2)
    ensures var r := Construct(g, withinRect, v1, v2);
            r.Group? && r.lines == [DrawnLine(SegmentLine, v1), DrawnLine(SegmentLine, v2)] && r.arc == ArcOf(g, v1, v2)
  {
  }

  /** An intersection only inside the first segment extends the second
      vector only: the first segment, the extension, then the second segment. */
  lemma IntersectionOnlyInSegment1(g: MathHelpers, withinRect: GeometricalPoint -> bool, v1: Vector, v2: Vector)
    requires g.intersection(v1, v2).Some?
    requires g.isPointInSegment(g.intersection(v1, v2).value, v1)
    requires !g.isPointInSegment(g.intersection(v1, v2).value, v2)
    ensures var i := g.intersection(v1, v2).value;
            var r := Construct(g, withinRect, v1, v2);
            && r.Group? && r.arc == ArcOf(g, v1, v2)
            && r.lines == [DrawnLine(SegmentLine, v1), DrawnLine(ExtendedLine, ExtendedVector(v2, i)), DrawnLine(SegmentLine, v2)]
            && Extensions(r.lines) == [ExtendedVector(v2, i)]
  {
  }

  /** An intersection only inside the second segment extends the first
      vector only: the extension, then the first and the second segment. */
  lemma IntersectionOnlyInSegment2(g: MathHelpers, withinRect: GeometricalPoint -> bool, v1: Vector, v2: Vector)
    requires g.intersection(v1, v2).Some?
    requires !g.isPointInSegment(g.intersection(v1, v2).value, v1)
    requires g.isPointInSegment(g.intersection(v1, v2).value, v2)
    ensures var i := g.intersection(v1, v2).value;
            var r := Construct(g, withinRect, v1, v2);
            && r.Group? && r.arc == ArcOf(g, v1, v2)
            && r.lines == [DrawnLine(ExtendedLine, ExtendedVector(v1, i)), DrawnLine(SegmentLine, v1), DrawnLine(SegmentLine, v2)]
            && Extensions(r.lines) == [ExtendedVector(v1, i)]
  {
  }

  /** An intersection outside both segments but in the visible area extends
      both vectors: each extension is drawn just before its own segment. */
  lemma IntersectionInsideRect(g: MathHelpers, withinRect: GeometricalPoint -> bool, v1: Vector, v2: Vector)
    requires g.intersection(v1, v2).Some?
    requires !g.isPointInSegment(g.intersection(v1, v2).value, v1)
    requires !g.isPointInSegment(g.intersection(v1, v2).value, v2)
    requires withinRect(g.intersection(v1, v2).value)
    ensures var i := g.intersection(v1, v2).value;
            var r := Construct(g, withinRect, v1, v2);
            && r.Group? && r.arc == ArcOf(g, v1, v2)
            && r.lines == [DrawnLine(ExtendedLine, ExtendedVector(v1, i)), DrawnLine(SegmentLine, v1),
                           DrawnLine(ExtendedLine, ExtendedVector(v2, i)), DrawnLine(SegmentLine, v2)]
            && Extensions(r.lines) == [ExtendedVector(v1, i), ExtendedVector(v2, i)] && Parallels(r.lines) == []
  {
  }

  /** An intersection outside both segments and the visible area, closer to
      the first vector, draws nothing: that construction does not exist. */
  lemma OutsideRectCloserToVector1(g: MathHelpers, withinRect: GeometricalPoint -> bool, v1: Vector, v2: Vector)
    requires g.intersection(v1, v2).Some?
    requires !g.isPointInSegment(g.intersection(v1, v2).value, v1)
    requires !g.isPointInSegment(g.intersection(v1, v2).value, v2)
    requires !withinRect(g.intersection(v1, v2).value)
    requires g.isPointCloserTo(g.intersection(v1, v2).value, v1, v2)
    ensures Construct(g, withinRect, v1, v2) == Empty
  {
  }

  /** Otherwise the parallel line starts where the second vector starts,
      keeps its end abscissa, rises with the first vector's slope, and the
      arc is built between it and the second vector. */
  lemma ParallelConstruction(g: MathHelpers, withinRect: GeometricalPoint -> bool, v1: Vector, v2: Vector)
    requires NeedsParallel(g, withinRect, v1, v2)
    ensures var r := Construct(g, withinRect, v1, v2);
            var p := ParallelThrough(g.slope(v1), v2);
            && r.Group?
            && r.lines == [DrawnLine(SegmentLine, v1), DrawnLine(ParallelLine, p), DrawnLine(SegmentLine, v2)]
            && Parallels(r.lines) == [p]
            && Start(p) == Start(v2) && p.x2 == v2.x2
            && p.y2 - p.y1 == g.slope(v1) * (p.x2 - p.x1)
            && r.arc == ArcOf(g, p, v2)
  {
    var p := ParallelThrough(g.slope(v1), v2);
    ParallelDrawing(g, withinRect, v1, v2);
    RolesOfThree(DrawnLine(SegmentLine, v1), DrawnLine(ParallelLine, p), DrawnLine(SegmentLine, v2));
  }

  /** In the parallel case the drawing is segment 1, the parallel line and
      segment 2, with the arc built against the parallel. */
  lemma ParallelDrawing(g: MathHelpers, withinRect: GeometricalPoint -> bool, v1: Vector, v2: Vector)
    requires NeedsParallel(g, withinRect, v1, v2)
    ensures var p := ParallelThrough(g.slope(v1), v2);
            Construct(g, withinRect, v1, v2) ==
              Group([DrawnLine(SegmentLine, v1), DrawnLine(ParallelLine, p), DrawnLine(SegmentLine, v2)], ArcOf(g, p, v2))
  {
  }

  /** When the slope helper reports the first vector's slope, the parallel
      line is parallel to the first vector: their direction vectors have a
      zero cross product. */
  lemma ParallelLineIsParallel(slope: real, v1: Vector, v2: Vector)
    requires v1.x2 != v1.x1
    requires slope == (v1.y2 - v1.y1) / (v1.x2 - v1.x1)
    ensures var p := ParallelThrough(slope, v2);
            (p.x2 - p.x1) * (v1.y2 - v1.y1) == (p.y2 - p.y1) * (v1.x2 - v1.x1)
  {
    var p := ParallelThrough(slope, v2);
    var dx := p.x2 - p.x1;
    assert v1.y2 - v1.y1 == slope * (v1.x2 - v1.x1);
    calc {
      (p.y2 - p.y1) * (v1.x2 - v1.x1);
      (slope * dx) * (v1.x2 - v1.x1);
      dx * (slope * (v1.x2 - v1.x1));
      dx * (v1.y2 - v1.y1);
    }
  }

  /** Whether `p` lies on the unbounded line through `v`. */
  predicate OnLine(p: GeometricalPoint, v: Vector)
  {
    (p.x - v.x1) * (v.y2 - v.y1) == (p.y - v.y1) * (v.x2 - v.x1)
  }

  /** For a vector of non-zero length and an intersection point on its line,
      the per-coordinate choice of the extension's start always picks one of
      the vector's own endpoints, and the one other than the intersection
      when the intersection is an endpoint: the extension runs from the
      vector's far end to the intersection. */
  lemma ExtensionStartsAtAnEndpoint(v: Vector, i: GeometricalPoint)
    requires Start(v) != End(v)
    requires OnLine(i, v)
    ensures var e := ExtendedVector(v, i);
            && (Start(e) == Start(v) || Start(e) == End(v))
            && (i == Start(v) ==> Start(e) == End(v))
            && (i == End(v) ==> Start(e) == Start(v))
  {
    var dx := v.x2 - v.x1;
    var dy := v.y2 - v.y1;
    if i.x == v.x1 {
      assert (i.y - v.y1) * dx == 0.0;
      if dx != 0.0 {
        assert i.y == v.y1;
      }
    } else if i.y == v.y1 {
      assert (i.x - v.x1) * dy == 0.0;
      assert dy == 0.0;
    }
  }

  /** Two segments crossing inside both, as the helpers report for
      (0,0)-(10,10) and (0,10)-(10,0) meeting at (5,5): no extension, the arc
      sits at (5,5) between the first two endpoints. */
  lemma CrossingSegmentsExample(g: MathHelpers, withinRect: GeometricalPoint -> bool)
    requires var v1 := GeometricalLine(0.0, 0.0, 10.0, 10.0);
             var v2 := GeometricalLine(0.0, 10.0, 10.0, 0.0);
             var i := GeometricalPoint(5.0, 5.0);
             g.intersection(v1, v2) == Some(i) && g.isPointInSegment(i, v1) && g.isPointInSegment(i, v2)
    ensures var v1 := GeometricalLine(0.0, 0.0, 10.0, 10.0);
            var v2 := GeometricalLine(0.0, 10.0, 10.0, 0.0);
            var r := Construct(g, withinRect, v1, v2);
            && r.Group? && Extensions(r.lines) == [] && Parallels(r.lines) == []
            && r.arc == ArcAt(GeometricalPoint(5.0, 5.0), GeometricalPoint(0.0, 0.0), GeometricalPoint(10.0, 10.0))
  {
    var v1 := GeometricalLine(0.0, 0.0, 10.0, 10.0);
    var v2 := GeometricalLine(0.0, 10.0, 10.0, 0.0);
    var i := GeometricalPoint(5.0, 5.0);
    var e := Endpoints(v1, v2);
    assert e[1..] == [End(v1), Start(v2), End(v2)];
    assert e[2..] == [Start(v2), End(v2)];
    assert e[3..] == [End(v2)];
    assert e[1..][1..] == e[2..] && e[2..][1..] == e[3..];
    assert e[3..][1..] == [];
    assert Seqs.Filter(e, DiffersFrom(i)) == e;
  }

  /** (0,0)-(5,0) against (10,0)-(10,10), meeting at (10,0) inside the
      second segment only: only the first vector is extended, from (0,0) to
      (10,0). */
  lemma ExtendFirstVectorExample(g: MathHelpers, withinRect: GeometricalPoint -> bool)
    requires var v1 := GeometricalLine(0.0, 0.0, 5.0, 0.0);
             var v2 := GeometricalLine(10.0, 0.0, 10.0, 10.0);
             var i := GeometricalPoint(10.0, 0.0);
             g.intersection(v1, v2) == Some(i) && !g.isPointInSegment(i, v1) && g.isPointInSegment(i, v2)
    ensures var r := Construct(g, withinRect, GeometricalLine(0.0, 0.0, 5.0, 0.0), GeometricalLine(10.0, 0.0, 10.0, 10.0));
            r.Group? && Extensions(r.lines) == [GeometricalLine(0.0, 0.0, 10.0, 0.0)]
  {
  }
}

=== FILE: landmarks.dfy ===
/** The landmark data model: the kinds of cephalometric landmark, their
    units and composition, the values evaluation produces, the closed set of
    clinical findings and the lifecycle states of a step. */
module Landmarks {
  import opened Wrappers

  datatype AngularUnit = Degree | Radian

  datatype LinearUnit = Millimetre | Centimetre | Inch

  datatype Unit = Angular(angular: AngularUnit) | Linear(linear: LinearUnit)

  /** The landmark's `type` field (a reserved word here, hence `kind`). */
  datatype LandmarkType = Point | Line | Angle | Distance

  /** A cephalometric landmark. `symbol` identifies it; `components` are the
      more basic landmarks it is built from, in declaration order. A custom
      calculation is passed alongside the landmark (see `Calculate`). The
      display name and description are not modelled. */
  datatype Landmark = Landmark(
    symbol: string,
    kind: LandmarkType,
    unit: Option<Unit>,
    components: seq<Landmark>)

  function SymbolOf(l: Landmark): string { l.symbol }

  predicate AllOfKind(ls: seq<Landmark>, k: LandmarkType)
  {
    forall i :: 0 <= i < |ls| ==> ls[i].kind == k
  }

  /** What the declared variants demand: lines and distances carry a linear
      unit and are made of points; angles carry an angular unit and are made
      either of points only or of lines only; points are unconstrained.
      Every component is itself well formed. */
  predicate WellFormed(l: Landmark)
    decreases l
  {
    && (match l.kind
        case Point => true
        case Line => l.unit.Some? && l.unit.value.Linear? && AllOfKind(l.components, Point)
        case Distance => l.unit.Some? && l.unit.value.Linear? && AllOfKind(l.components, Point)
        case Angle =>
          && l.unit.Some? && l.unit.value.Angular?
          && (AllOfKind(l.components, Point) || AllOfKind(l.components, Line)))
    && forall i :: 0 <= i < |l.components| ==> WellFormed(l.components[i])
  }

  /** The symbol is the landmark's identity: within `ls`, two landmarks with
      the same symbol are the same landmark. */
  predicate SymbolsIdentify(ls: seq<Landmark>)
  {
    forall i, j :: 0 <= i < |ls| && 0 <= j < |ls| && ls[i].symbol == ls[j].symbol ==> ls[i] == ls[j]
  }

  /** The linear unit of a well-formed line or distance. */
  function LinearUnitOf(l: Landmark): (u: LinearUnit)
    requires WellFormed(l) && (l.kind == Line || l.kind == Distance)
    ensures l.unit == Some(Linear(u))
  {
    l.unit.value.linear
  }

  /** The angular unit of a well-formed angle. */
  function AngularUnitOf(l: Landmark): (u: AngularUnit)
    requires WellFormed(l) && l.kind == Angle
    ensures l.unit == Some(Angular(u))
  {
    l.unit.value.angular
  }

  /** The one kind shared by all components of a well-formed angle. */
  function AngleComponentKind(l: Landmark): (k: LandmarkType)
    requires WellFormed(l) && l.kind == Angle
    ensures k == Point || k == Line
    ensures forall c :: c in l.components ==> c.kind == k
  {
    if AllOfKind(l.components, Point) then Point else Line
  }

  /** Every component of a well-formed line or distance is a point. */
  lemma LinearLandmarkHasPointComponents(l: Landmark)
    requires WellFormed(l) && (l.kind == Line || l.kind == Distance)
    ensures forall c :: c in l.components ==> c.kind == Point && WellFormed(c)
  {
  }

  /** The arguments a custom calculation receives: one number per
      component, in declaration order, available only when every component
      has a numeric value. */
  function CalculationArguments(l: Landmark, valueOf: Landmark -> Option<real>): (r: Option<seq<real>>)
    ensures r.Some? <==> forall i :: 0 <= i < |l.components| ==> valueOf(l.components[i]).Some?
    ensures r.Some? ==> |r.value| == |l.components|
    ensures r.Some? ==> forall i :: 0 <= i < |l.components| ==> r.value[i] == valueOf(l.components[i]).value
  {
    ArgumentsOf(l.components, valueOf)
  }

  function ArgumentsOf(cs: seq<Landmark>, valueOf: Landmark -> Option<real>): (r: Option<seq<real>>)
    ensures r.Some? <==> forall i :: 0 <= i < |cs| ==> valueOf(cs[i]).Some?
    ensures r.Some? ==> |r.value| == |cs|
    ensures r.Some? ==> forall i :: 0 <= i < |cs| ==> r.value[i] == valueOf(cs[i]).value
  {
    if |cs| == 0 then Some([])
    else match (valueOf(cs[0]), ArgumentsOf(cs[1..], valueOf))
      case (Some(v), Some(vs)) => Some([v] + vs)
      case _ => assert forall i :: 1 <= i < |cs| ==> cs[i] == cs[1..][i - 1]; None
  }

  /** The value a custom calculation produces, when all arguments exist:
      the calculation applied to the components' values in declaration order. */
  function Calculate(l: Landmark, calculate: seq<real> -> real, valueOf: Landmark -> Option<real>): (r: Option<real>)
    ensures r.Some? <==> forall i :: 0 <= i < |l.components| ==> valueOf(l.components[i]).Some?
    ensures r.Some? ==> r.value == calculate(seq(|l.components|, i requires 0 <= i < |l.components| => valueOf(l.components[i]).value))
  {
    match CalculationArguments(l, valueOf)
    case None => None
    case Some(args) =>
      assert args == seq(|l.components|, i requires 0 <= i < |l.components| => valueOf(l.components[i]).value);
      Some(calculate(args))
  }

  datatype GeometricalPoint = GeometricalPoint(x: real, y: real)

  datatype GeometricalLine = GeometricalLine(x1: real, y1: real, x2: real, y2: real)

  datatype GeometricalObject = PointObject(point: GeometricalPoint) | LineObject(line: GeometricalLine)

  /** What evaluation yields for a landmark: a geometrical object or a number. */
  datatype EvaluatedValue = Geometrical(geometry: GeometricalObject) | Number(number: real)

  predicate IsPointValue(v: EvaluatedValue) { v.Geometrical? && v.geometry.PointObject? }
  predicate IsLineValue(v: EvaluatedValue) { v.Geometrical? && v.geometry.LineObject? }
  predicate IsNumberValue(v: EvaluatedValue) { v.Number? }

  /** An evaluated value is exactly one of a point, a line or a number. */
  lemma EvaluatedValueIsExactlyOne(v: EvaluatedValue)
    ensures IsPointValue(v) || IsLineValue(v) || IsNumberValue(v)
    ensures !(IsPointValue(v) && IsLineValue(v))
    ensures !(IsPointValue(v) && IsNumberValue(v))
    ensures !(IsLineValue(v) && IsNumberValue(v))
  {
  }

  /** The closed set of clinical findings an interpretation may report. */
  datatype AnalysisResult =
    | ClassISkeletalPattern
    | ClassIISkeletalPattern
    | ClassIIISkeletalPattern
    | PrognathicMaxilla
    | RetrognathicMaxilla
    | NormalMaxilla
    | PrognathicMandible
    | RetrognathicMandible
    | NormalMandible

  /** The position of a finding in its declaration. */
  function Ordinal(t: AnalysisResult): nat
  {
    match t
    case ClassISkeletalPattern => 0
    case ClassIISkeletalPattern => 1
    case ClassIIISkeletalPattern => 2
    case PrognathicMaxilla => 3
    case RetrognathicMaxilla => 4
    case NormalMaxilla => 5
    case PrognathicMandible => 6
    case RetrognathicMandible => 7
    case NormalMandible => 8
  }

  /** All findings, in declaration order: nine distinct tags and no others. */
  function AllAnalysisResults(): (r: seq<AnalysisResult>)
    ensures |r| == 9
    ensures forall i, j :: 0 <= i < j < |r| ==> r[i] != r[j]
    ensures forall t: AnalysisResult :: t in r
  {
    var r := [ ClassISkeletalPattern, ClassIISkeletalPattern, ClassIIISkeletalPattern,
               PrognathicMaxilla, RetrognathicMaxilla, NormalMaxilla,
               PrognathicMandible, RetrognathicMandible, NormalMandible ];
    assert forall t: AnalysisResult :: t in r by {
      forall t: AnalysisResult ensures t in r {
        assert Ordinal(t) < |r| && r[Ordinal(t)] == t;
      }
    }
    r
  }

  /** A landmark an analysis relies on, with its clinical norm. */
  datatype AnalysisComponent = AnalysisComponent(landmark: Landmark, norm: real, stdDev: Option<real>)

  /** An analysis definition. Its interpretation function is supplied
      separately (see `Resolution.Helpers.interpret`). */
  datatype Analysis = Analysis(id: string, components: seq<AnalysisComponent>)

  /** The lifecycle of a step. The declared type lists four states; the
      state selector also produces `Skipped`, so all five are here. */
  datatype StepState = Done | Current | Pending | Evaluating | Skipped

  /** A landmark in the context of one analysis run. */
  datatype Step = Step(landmark: Landmark, title: string, state: StepState)
}

=== FILE: reducers.dfy ===
/** The three pieces of workspace state the analyses slice owns and the
    actions that change them: per-image-type analysis load status, the
    analysis last used for each image type, and whether the results summary
    is shown. Actions other than the ones a reducer handles leave its state
    as it was. */
module AnalysesReducers {
  import opened Wrappers

  datatype ImageType = CephLateral | CephPa | PhotoFrontal | PhotoLateral | Panoramic

  /** The load status of one analysis for one image type. */
  datatype LoadStatus = LoadStatus(isLoading: bool, error: Option<string>)

  /** Status entries keyed by image type, then by analysis id. */
  type LoadStatusTable = map<ImageType, map<string, LoadStatus>>

  datatype Action =
    | SetAnalysisRequested(analysisId: string, imageType: ImageType)
    | FetchAnalysisFailed(analysisId: string, imageType: ImageType, error: string)
    | FetchAnalysisSucceeded(analysisId: string, imageType: ImageType)
    | ToggleAnalysisResultsRequested
    | Unrelated

  predicate IsLoadAction(a: Action)
  {
    a.SetAnalysisRequested? || a.FetchAnalysisFailed? || a.FetchAnalysisSucceeded?
  }

  /** The entry for `analysisId` under `imageType`, if there is one. */
  function StatusOf(t: LoadStatusTable, imageType: ImageType, analysisId: string): Option<LoadStatus>
  {
    if imageType in t && analysisId in t[imageType] then Some(t[imageType][analysisId]) else None
  }

  /** The status reducer: a load action writes exactly one entry, the one
      for its image type and analysis id; every other entry is kept. A
      request marks the analysis loading with no error, a failure records the
      error and stops loading, a success stops loading with no error. */
  function ReduceLoadStatus(t: LoadStatusTable, a: Action): (r: LoadStatusTable)
    ensures a.SetAnalysisRequested? ==>
              StatusOf(r, a.imageType, a.analysisId) == Some(LoadStatus(true, None))
    ensures a.FetchAnalysisFailed? ==>
              StatusOf(r, a.imageType, a.analysisId) == Some(LoadStatus(false, Some(a.error)))
    ensures a.FetchAnalysisSucceeded? ==>
              StatusOf(r, a.imageType, a.analysisId) == Some(LoadStatus(false, None))
    ensures IsLoadAction(a) ==>
              forall it, id :: (it, id) != (a.imageType, a.analysisId) ==> StatusOf(r, it, id) == StatusOf(t, it, id)
    ensures IsLoadAction(a) ==> r.Keys == t.Keys + {a.imageType}
    ensures !IsLoadAction(a) ==> r == t
  {
    match a
    case SetAnalysisRequested(id, it) => WriteStatus(t, it, id, LoadStatus(true, None))
    case FetchAnalysisFailed(id, it, e) => WriteStatus(t, it, id, LoadStatus(false, Some(e)))
    case FetchAnalysisSucceeded(id, it) => WriteStatus(t, it, id, LoadStatus(false, None))
    case _ => t
  }

  /** Spreads the old entries of `imageType` (none if absent) and overwrites `analysisId`. */
  function WriteStatus(t: LoadStatusTable, imageType: ImageType, analysisId: string, s: LoadStatus): (r: LoadStatusTable)
    ensures StatusOf(r, imageType, analysisId) == Some(s)
    ensures forall it, id :: (it, id) != (imageType, analysisId) ==> StatusOf(r, it, id) == StatusOf(t, it, id)
    ensures r.Keys == t.Keys + {imageType}
  {
    var inner := if imageType in t then t[imageType] else map[];
    t[imageType := inner[analysisId := s]]
  }

  /** The last-used analysis per image type before any request. */
  const InitialLastUsed: map<ImageType, string> := map[
    CephLateral := "ricketts_lateral",
    CephPa := "ricketts_frontal",
    PhotoFrontal := "frontal_face_proportions",
    PhotoLateral := "soft_tissues_photo_lateral",
    Panoramic := "panoramic_analysis"]

  /** The last-used reducer: a request records its analysis id for its image
      type and changes no other image type; other actions change nothing. */
  function ReduceLastUsed(m: map<ImageType, string>, a: Action): (r: map<ImageType, string>)
    ensures a.SetAnalysisRequested? ==> a.imageType in r && r[a.imageType] == a.analysisId
    ensures a.SetAnalysisRequested? ==>
              forall it :: it != a.imageType ==> (it in r <==> it in m) && (it in m ==> r[it] == m[it])
    ensures !a.SetAnalysisRequested? ==> r == m
  {
    match a
    case SetAnalysisRequested(id, it) => m[it := id]
    case _ => m
  }

  /** The summary reducer: the toggle action negates the flag. */
  function ReduceSummaryShown(shown: bool, a: Action): (r: bool)
    ensures a.ToggleAnalysisResultsRequested? ==> r != shown
    ensures !a.ToggleAnalysisResultsRequested? ==> r == shown
  {
    if a.ToggleAnalysisResultsRequested? then !shown else shown
  }

  /** Toggling twice shows what was shown before. */
  lemma ToggleIsInvolution(shown: bool)
    ensures ReduceSummaryShown(ReduceSummaryShown(shown, ToggleAnalysisResultsRequested), ToggleAnalysisResultsRequested) == shown
  {
  }

  /** The slice's whole state. */
  datatype AnalysesState = AnalysesState(
    status: LoadStatusTable,
    lastUsed: map<ImageType, string>,
    summaryShown: bool)

  const InitialState := AnalysesState(map[], InitialLastUsed, false)

  /** Every reducer sees every action. */
  function Reduce(s: AnalysesState, a: Action): (r: AnalysesState)
    ensures r.summaryShown != s.summaryShown <==> a.ToggleAnalysisResultsRequested?
    ensures r.lastUsed != s.lastUsed ==> a.SetAnalysisRequested?
    ensures r.status != s.status ==> IsLoadAction(a)
  {
    AnalysesState(
      ReduceLoadStatus(s.status, a),
      ReduceLastUsed(s.lastUsed, a),
      ReduceSummaryShown(s.summaryShown, a))
  }

  /** A request is recorded in both slices it concerns: the analysis is
      marked loading with no error for its image type, and it becomes that
      image type's last-used analysis. The summary flag is untouched. */
  lemma RequestUpdatesBothSlices(s: AnalysesState, id: string, it: ImageType)
    ensures var r := Reduce(s, SetAnalysisRequested(id, it));
            && StatusOf(r.status, it, id) == Some(LoadStatus(true, None))
            && it in r.lastUsed && r.lastUsed[it] == id
            && r.summaryShown == s.summaryShown
  {
  }

  /** A fetch result ends loading for its analysis and image type, recording
      the error of a failure and none for a success; the last-used analyses
      and the summary flag are untouched. */
  lemma FetchResultUpdatesStatusOnly(s: AnalysesState, id: string, it: ImageType, e: string)
    ensures var r := Reduce(s, FetchAnalysisFailed(id, it, e));
            && StatusOf(r.status, it, id) == Some(LoadStatus(false, Some(e)))
            && r.lastUsed == s.lastUsed && r.summaryShown == s.summaryShown
    ensures var r := Reduce(s, FetchAnalysisSucceeded(id, it));
            && StatusOf(r.status, it, id) == Some(LoadStatus(false, None))
            && r.lastUsed == s.lastUsed && r.summaryShown == s.summaryShown
  {
  }

  /** Every image type has a last-used analysis from the start, and no
      action takes one away. */
  lemma LastUsedStaysTotal(s: AnalysesState, a: Action)
    requires forall it :: it in s.lastUsed
    ensures forall it :: it in Reduce(s, a).lastUsed
    ensures forall it :: it in InitialState.lastUsed
  {
    assert forall it :: it in InitialLastUsed by {
      forall it ensures it in InitialLastUsed {
        match it {
          case CephLateral =>
          case CephPa =>
          case PhotoFrontal =>
          case PhotoLateral =>
          case Panoramic =>
        }
      }
    }
  }
}

=== FILE: resolution.dfy ===
/** The step-resolution engine: from the ordered steps of the active
    analysis, the manually placed landmark values and the skipped-step flags
    it decides, per step, whether its manual mapping is complete, whether it
    can be mapped automatically or computed, and its lifecycle state.

    The step helpers of the analyses package are not part of this model;
    they arrive as the function values of a `Helpers` record and every
    result holds whatever those functions are. */
module Resolution {
  import opened Wrappers
  import opened Landmarks
  import Seqs

  /** Manually placed values, keyed by landmark symbol. */
  type ManualLandmarks = map<string, EvaluatedValue>

  /** Skipped-step flags, keyed by landmark symbol. */
  type SkippedSteps = map<string, bool>

  /** Evaluated values keyed by symbol; `None` for a step with no value yet. */
  type ValueMap = map<string, Option<EvaluatedValue>>

  /** The step helpers and the active analysis's interpretation. */
  datatype Helpers = Helpers(
    stepsForAnalysis: (Analysis, bool) -> seq<Landmark>,  // second argument: remove duplicates
    areEqualSteps: (Landmark, Landmark) -> bool,
    areEqualSymbols: (Landmark, Landmark) -> bool,
    isManual: Landmark -> bool,
    isComputable: Landmark -> bool,
    isMappable: Landmark -> bool,
    tryMap: (Landmark, ManualLandmarks) -> Option<EvaluatedValue>,
    tryCalculate: Landmark -> Option<EvaluatedValue>,
    interpret: (Analysis, ValueMap, ValueMap) -> seq<AnalysisResult>)

  /** Symbol comparison compares symbols. */
  ghost predicate ComparesSymbols(h: Helpers)
  {
    forall a, b :: h.areEqualSymbols(a, b) == (a.symbol == b.symbol)
  }

  // ---------------------------------------------------------------------------
  // The active analysis and its steps

  /** Whether an analysis is selected. */
  function IsAnalysisSet(activeId: Option<string>): bool
  {
    activeId.Some?
  }

  datatype LookupError = UnknownAnalysis(id: string)

  /** Resolves the selected analysis id through the registry of analysis
      definitions. No selection is not an error; an id the registry does not
      know is. */
  function ActiveAnalysis(registry: string -> Option<Analysis>, activeId: Option<string>): (r: Result<Option<Analysis>, LookupError>)
    ensures r.Success? && r.value.None? <==> activeId.None?
    ensures r.Failure? <==> activeId.Some? && registry(activeId.value).None?
    ensures r.Failure? ==> r.error == UnknownAnalysis(activeId.value)
    ensures r.Success? && r.value.Some? ==> registry(activeId.value) == r.value
  {
    match activeId
    case None => Success(None)
    case Some(id) =>
      match registry(id)
      case None => Failure(UnknownAnalysis(id))
      case Some(a) => Success(Some(a))
  }

  /** The deduplicated steps of the active analysis; none without one. */
  function ActiveAnalysisSteps(h: Helpers, analysis: Option<Analysis>): (r: seq<Landmark>)
    ensures analysis.None? ==> r == []
    ensures analysis.Some? ==> r == h.stepsForAnalysis(analysis.value, true)
  {
    if analysis.None? then [] else h.stepsForAnalysis(analysis.value, true)
  }

  /** Every occurrence of every step of the active analysis; none without one. */
  function AllPossibleActiveAnalysisSteps(h: Helpers, analysis: Option<Analysis>): (r: seq<Landmark>)
    ensures analysis.None? ==> r == []
    ensures analysis.Some? ==> r == h.stepsForAnalysis(analysis.value, false)
  {
    if analysis.None? then [] else h.stepsForAnalysis(analysis.value, false)
  }

  function HasSymbol(symbol: string): Landmark -> bool
  {
    (s: Landmark) => s.symbol == symbol
  }

  /** The first step, among all occurrences or among the deduplicated steps,
      whose symbol is `symbol`. */
  function FindStepBySymbol(steps: seq<Landmark>, deduplicatedSteps: seq<Landmark>, symbol: string, includeDuplicates: bool): (r: Option<Landmark>)
    ensures r.Some? ==> r.value.symbol == symbol
    ensures includeDuplicates ==> (r.Some? ==> r.value in steps) && (r.None? <==> forall i :: 0 <= i < |steps| ==> steps[i].symbol != symbol)
    ensures !includeDuplicates ==> (r.Some? ==> r.value in deduplicatedSteps) && (r.None? <==> forall i :: 0 <= i < |deduplicatedSteps| ==> deduplicatedSteps[i].symbol != symbol)
    ensures includeDuplicates && r.Some? ==> forall i :: 0 <= i < |steps| && steps[i].symbol == symbol ==> r.value in steps[..i + 1]
    ensures !includeDuplicates && r.Some? ==>
              forall i :: 0 <= i < |deduplicatedSteps| && deduplicatedSteps[i].symbol == symbol ==> r.value in deduplicatedSteps[..i + 1]
  {
    Seqs.Find(if includeDuplicates then steps else deduplicatedSteps, HasSymbol(symbol))
  }

  /** Among steps identified by their symbols, the step found is the only one with that symbol. */
  lemma FoundStepIsUnique(steps: seq<Landmark>, symbol: string)
    requires SymbolsIdentify(steps)
    ensures var r := FindStepBySymbol(steps, [], symbol, true);
            r.Some? ==> forall i :: 0 <= i < |steps| && steps[i].symbol == symbol ==> steps[i] == r.value
  {
  }

  // ---------------------------------------------------------------------------
  // The next landmark the user is expected to place

  /** The manual steps, in step order, each as often as it occurs. */
  function ManualSteps(h: Helpers, steps: seq<Landmark>): (r: seq<Landmark>)
    ensures forall s :: s in r <==> s in steps && h.isManual(s)
    ensures forall s :: s in steps ==> multiset(r)[s] == if h.isManual(s) then multiset(steps)[s] else 0
  {
    Seqs.FilterCounts(steps, h.isManual);
    Seqs.Filter(steps, h.isManual)
  }

  /** The manual steps keep step order: those of a concatenation are those
      of the first part followed by those of the second, and a single step
      contributes itself exactly when it is manual. */
  lemma ManualStepsKeepOrder(h: Helpers, xs: seq<Landmark>, ys: seq<Landmark>, s: Landmark)
    ensures ManualSteps(h, xs + ys) == ManualSteps(h, xs) + ManualSteps(h, ys)
    ensures ManualSteps(h, [s]) == if h.isManual(s) then [s] else []
  {
    Seqs.FilterConcat(xs, ys, h.isManual);
    Seqs.FilterSingleton(s, h.isManual);
  }

  function Unplaced(manual: ManualLandmarks): Landmark -> bool
  {
    (s: Landmark) => s.symbol !in manual
  }

  function ManualAndUnplaced(h: Helpers, manual: ManualLandmarks): Landmark -> bool
  {
    (s: Landmark) => h.isManual(s) && s.symbol !in manual
  }

  /** The landmark the user should place next: the first manual step with no
      manual value under its symbol. `None` exactly when every manual step has
      a value. */
  function ExpectedNextManualLandmark(h: Helpers, steps: seq<Landmark>, manual: ManualLandmarks): (r: Option<Landmark>)
    ensures r.Some? ==> r.value in steps && h.isManual(r.value) && r.value.symbol !in manual
    ensures r.None? <==> forall i :: 0 <= i < |steps| && h.isManual(steps[i]) ==> steps[i].symbol in manual
    ensures r.Some? ==> forall i :: 0 <= i < |steps| && h.isManual(steps[i]) && steps[i].symbol !in manual ==>
              r.value in steps[..i + 1]
  {
    Seqs.FindAfterFilter(steps, h.isManual, Unplaced(manual), ManualAndUnplaced(h, manual));
    Seqs.Find(ManualSteps(h, steps), Unplaced(manual))
  }

  // ---------------------------------------------------------------------------
  // Equal components

  function EqualButNotSameSymbol(h: Helpers, step: Landmark): Landmark -> bool
  {
    (s: Landmark) => !h.areEqualSymbols(step, s) && h.areEqualSteps(step, s)
  }

  /** The occurrences, among all steps, that the helpers call equal to `step`
      but whose symbol differs: exactly those, in step order. */
  function FindEqualComponents(h: Helpers, allSteps: seq<Landmark>, step: Landmark): (r: seq<Landmark>)
    ensures forall s :: s in r ==> s in allSteps && h.areEqualSteps(step, s) && !h.areEqualSymbols(step, s)
    ensures forall s :: s in allSteps && h.areEqualSteps(step, s) && !h.areEqualSymbols(step, s) ==> s in r
  {
    Seqs.Filter(allSteps, EqualButNotSameSymbol(h, step))
  }

  /** When symbol comparison compares symbols, no equal component shares the step's symbol. */
  lemma EqualComponentsHaveOtherSymbols(h: Helpers, allSteps: seq<Landmark>, step: Landmark)
    requires ComparesSymbols(h)
    ensures forall s :: s in FindEqualComponents(h, allSteps, step) ==> s.symbol != step.symbol
  {
  }

  /** The lookup is not closed under chains of equality: with A equal to B
      and B equal to C but A not equal to C, B is an equal component of A and
      C one of B, yet C is not one of A. */
  lemma EqualComponentsAreNotTransitive()
    ensures var a := Landmark("A", Point, None, []);
            var b := Landmark("B", Point, None, []);
            var c := Landmark("C", Point, None, []);
            var linked := (x: Landmark, y: Landmark) =>
              ({x.symbol, y.symbol} == {"A", "B"} || {x.symbol, y.symbol} == {"B", "C"});
            var h := Helpers((an, d) => [], linked, (x: Landmark, y: Landmark) => x.symbol == y.symbol,
                             s => false, s => false, s => false, (s, m) => None, s => None, (an, v, o) => []);
            && b in FindEqualComponents(h, [a, b, c], a)
            && c in FindEqualComponents(h, [a, b, c], b)
            && c !in FindEqualComponents(h, [a, b, c], a)
  {
    var a := Landmark("A", Point, None, []);
    var c := Landmark("C", Point, None, []);
    assert {a.symbol, c.symbol} != {"A", "B"} by { assert "C" in {a.symbol, c.symbol}; }
    assert {a.symbol, c.symbol} != {"B", "C"} by { assert "A" in {a.symbol, c.symbol}; }
  }

  // ---------------------------------------------------------------------------
  // Mapping

  /** A step with a manual mapping is complete when a value sits under its
      symbol; a step without one is always complete. */
  predicate IsManualStepMappingComplete(h: Helpers, manual: ManualLandmarks, step: Landmark)
  {
    if h.isMappable(step) then step.symbol in manual else true
  }

  /** A step without a manual mapping is always complete; one with a manual
      mapping is complete exactly when a value sits under its symbol, whatever
      that value is. */
  lemma ManualMappingCompleteness(h: Helpers, manual: ManualLandmarks, step: Landmark)
    ensures !h.isMappable(step) ==> IsManualStepMappingComplete(h, manual, step)
    ensures h.isMappable(step) ==> (IsManualStepMappingComplete(h, manual, step) <==> step.symbol in manual)
  {
  }

  /** Placing more manual values never makes a complete manual mapping incomplete. */
  lemma ManualMappingCompleteMonotone(h: Helpers, manual: ManualLandmarks, more: ManualLandmarks, step: Landmark)
    requires manual.Keys <= more.Keys
    ensures IsManualStepMappingComplete(h, manual, step) ==> IsManualStepMappingComplete(h, more, step)
  {
  }

  /** A component counts towards automatic mapping when it is a manual step
      whose mapping is complete, or a non-manual step that is itself eligible. */
  predicate ComponentReady(h: Helpers, manual: ManualLandmarks, c: Landmark)
    decreases c, 1
  {
    if h.isManual(c) then IsManualStepMappingComplete(h, manual, c)
    else IsEligibleForAutomaticMapping(h, manual, c)
  }

  /** A manual step is never mapped automatically; any other step is, once
      all its components are ready. */
  predicate IsEligibleForAutomaticMapping(h: Helpers, manual: ManualLandmarks, s: Landmark)
    decreases s, 0
  {
    !h.isManual(s) && forall i :: 0 <= i < |s.components| ==> ComponentReady(h, manual, s.components[i])
  }

  /** Automatic-mapping eligibility only grows as manual values are placed. */
  lemma {:induction false} EligibilityMonotone(h: Helpers, manual: ManualLandmarks, more: ManualLandmarks, s: Landmark)
    requires manual.Keys <= more.Keys
    requires IsEligibleForAutomaticMapping(h, manual, s)
    ensures IsEligibleForAutomaticMapping(h, more, s)
    decreases s
  {
    forall i | 0 <= i < |s.components|
      ensures ComponentReady(h, more, s.components[i])
    {
      var c := s.components[i];
      if !h.isManual(c) {
        EligibilityMonotone(h, manual, more, c);
      }
    }
  }

  /** The manual landmarks a step's automatic mapping waits on: walking its
      component tree, each manual landmark met is collected and not entered,
      each other landmark is entered. */
  function ManualDependencies(h: Helpers, s: Landmark): seq<Landmark>
    decreases s, 1
  {
    ManualDependenciesOf(h, s.components)
  }

  function ManualDependenciesOf(h: Helpers, cs: seq<Landmark>): seq<Landmark>
    decreases cs, 0
  {
    if |cs| == 0 then []
    else (if h.isManual(cs[0]) then [cs[0]] else ManualDependencies(h, cs[0])) + ManualDependenciesOf(h, cs[1..])
  }

  ghost predicate AllManuallyComplete(h: Helpers, manual: ManualLandmarks, ds: seq<Landmark>)
  {
    forall d :: d in ds ==> IsManualStepMappingComplete(h, manual, d)
  }

  /** A non-manual step is eligible for automatic mapping exactly when every
      manual landmark it depends on has a complete manual mapping. */
  lemma {:induction false} EligibleIffDependenciesComplete(h: Helpers, manual: ManualLandmarks, s: Landmark)
    requires !h.isManual(s)
    ensures IsEligibleForAutomaticMapping(h, manual, s) <==> AllManuallyComplete(h, manual, ManualDependencies(h, s))
    decreases s, 1
  {
    ComponentsReadyIffDependenciesComplete(h, manual, s.components);
  }

  lemma {:induction false} ComponentsReadyIffDependenciesComplete(h: Helpers, manual: ManualLandmarks, cs: seq<Landmark>)
    ensures (forall i :: 0 <= i < |cs| ==> ComponentReady(h, manual, cs[i])) <==>
            AllManuallyComplete(h, manual, ManualDependenciesOf(h, cs))
    decreases cs, 0
  {
    if |cs| > 0 {
      var head := if h.isManual(cs[0]) then [cs[0]] else ManualDependencies(h, cs[0]);
      var tail := ManualDependenciesOf(h, cs[1..]);
      if !h.isManual(cs[0]) {
        EligibleIffDependenciesComplete(h, manual, cs[0]);
      }
      ComponentsReadyIffDependenciesComplete(h, manual, cs[1..]);
      assert AllManuallyComplete(h, manual, head + tail) <==>
             AllManuallyComplete(h, manual, head) && AllManuallyComplete(h, manual, tail);
      assert (forall i :: 0 <= i < |cs| ==> ComponentReady(h, manual, cs[i])) <==>
             ComponentReady(h, manual, cs[0]) && (forall i :: 0 <= i < |cs[1..]| ==> ComponentReady(h, manual, cs[1..][i]));
    }
  }

  /** A manual step is never eligible for automatic mapping; a non-manual
      step with no components always is. */
  lemma EligibilityBaseCases(h: Helpers, manual: ManualLandmarks, s: Landmark)
    ensures h.isManual(s) ==> !IsEligibleForAutomaticMapping(h, manual, s)
    ensures !h.isManual(s) && |s.components| == 0 ==> IsEligibleForAutomaticMapping(h, manual, s)
  {
  }

  /** The manual value under `symbol`, if one was placed. */
  function ManualValue(manual: ManualLandmarks, symbol: string): (r: Option<EvaluatedValue>)
    ensures r.Some? <==> symbol in manual
    ensures r.Some? ==> r.value == manual[symbol]
  {
    if symbol in manual then Some(manual[symbol]) else None
  }

  /** JavaScript truthiness of an evaluated value: objects are truthy, the
      number zero is not (NaN, the other falsy number, has no counterpart in
      `real`). */
  predicate IsTruthy(v: EvaluatedValue)
  {
    !(v.Number? && v.number == 0.0)
  }

  /** The manual value under `symbol` as the fallback expression
      `manual[symbol] || undefined` computes it: a placed zero is lost. */
  function ManualValueAsWritten(manual: ManualLandmarks, symbol: string): (r: Option<EvaluatedValue>)
    ensures r.Some? <==> symbol in manual && IsTruthy(manual[symbol])
    ensures r.Some? ==> r.value == manual[symbol]
  {
    if symbol in manual && IsTruthy(manual[symbol]) then Some(manual[symbol]) else None
  }

  /** The mapped value of a step, as written: the helpers' automatic mapping
      when the step is eligible, otherwise the manual value if it is truthy. */
  function MappedValueAsWritten(h: Helpers, manual: ManualLandmarks, step: Landmark): (r: Option<EvaluatedValue>)
    ensures IsEligibleForAutomaticMapping(h, manual, step) ==> r == h.tryMap(step, manual)
    ensures !IsEligibleForAutomaticMapping(h, manual, step) ==> (r.Some? <==> step.symbol in manual && IsTruthy(manual[step.symbol]))
    ensures !IsEligibleForAutomaticMapping(h, manual, step) && r.Some? ==> r.value == manual[step.symbol]
  {
    if IsEligibleForAutomaticMapping(h, manual, step) then h.tryMap(step, manual)
    else ManualValueAsWritten(manual, step.symbol)
  }

  /** The mapped value of a step: the helpers' automatic mapping when the
      step is eligible for it, otherwise whatever value was placed under its
      symbol, zero included. */
  function MappedValue(h: Helpers, manual: ManualLandmarks, step: Landmark): (r: Option<EvaluatedValue>)
    ensures IsEligibleForAutomaticMapping(h, manual, step) ==> r == h.tryMap(step, manual)
    ensures !IsEligibleForAutomaticMapping(h, manual, step) ==> (r.Some? <==> step.symbol in manual)
    ensures !IsEligibleForAutomaticMapping(h, manual, step) && r.Some? ==> r.value == manual[step.symbol]
  {
    if IsEligibleForAutomaticMapping(h, manual, step) then h.tryMap(step, manual)
    else ManualValue(manual, step.symbol)
  }

  /** A mappable step's mapping is complete when it has a mapped value; a
      step without a mapping is always complete. */
  predicate IsStepMappingComplete(h: Helpers, manual: ManualLandmarks, step: Landmark)
  {
    if h.isMappable(step) then MappedValue(h, manual, step).Some? else true
  }

  /** For a manual step the two notions of mapping completeness agree: it is
      complete exactly when a value sits under its symbol. */
  lemma ManualStepCompletenessAgrees(h: Helpers, manual: ManualLandmarks, step: Landmark)
    requires h.isManual(step)
    ensures IsStepMappingComplete(h, manual, step) == IsManualStepMappingComplete(h, manual, step)
    ensures MappedValue(h, manual, step) == ManualValue(manual, step.symbol)
  {
  }

  /** The two fallbacks differ only on a placed zero: when no manual value
      is the number zero, the code as written and the corrected fallback give
      every step the same mapped value. */
  lemma AsWrittenAgreesWithoutZero(h: Helpers, manual: ManualLandmarks, step: Landmark)
    requires forall k :: k in manual ==> IsTruthy(manual[k])
    ensures MappedValueAsWritten(h, manual, step) == MappedValue(h, manual, step)
  {
  }

  /** The expression as written breaks that agreement: a manual, mappable
      step whose placed value is the number zero has a complete manual
      mapping but no mapped value. */
  lemma ZeroManualValueIsLost()
    ensures var step := Landmark("S", Point, None, []);
            var h := Helpers((a, d) => [], (a, b) => false, (a, b) => false, s => true, s => false, s => true,
                             (s, m) => None, s => None, (a, v, o) => []);
            var manual := map["S" := Number(0.0)];
            && IsManualStepMappingComplete(h, manual, step)
            && MappedValueAsWritten(h, manual, step).None?
            && MappedValue(h, manual, step) == Some(Number(0.0))
  {
  }

  // ---------------------------------------------------------------------------
  // Computation

  /** A component is available for computation when its own mapping is
      complete or the mapping of one of its equal components is. */
  predicate HasMappedEquivalent(h: Helpers, manual: ManualLandmarks, allSteps: seq<Landmark>, c: Landmark)
  {
    || IsStepMappingComplete(h, manual, c)
    || exists e :: e in FindEqualComponents(h, allSteps, c) && IsStepMappingComplete(h, manual, e)
  }

  /** A step can be computed when it is computable and every component, or
      one of its equals, has a complete mapping. */
  predicate IsEligibleForComputation(h: Helpers, manual: ManualLandmarks, allSteps: seq<Landmark>, step: Landmark)
  {
    h.isComputable(step) && forall i :: 0 <= i < |step.components| ==> HasMappedEquivalent(h, manual, allSteps, step.components[i])
  }

  /** Delegation: an unmapped component is made available by any other
      occurrence, under a different symbol, that the helpers call equal to it
      and whose mapping is complete. */
  lemma DelegationToEqualStep(h: Helpers, manual: ManualLandmarks, allSteps: seq<Landmark>, c: Landmark, e: Landmark)
    requires e in allSteps && h.areEqualSteps(c, e) && !h.areEqualSymbols(c, e)
    requires IsStepMappingComplete(h, manual, e)
    ensures HasMappedEquivalent(h, manual, allSteps, c)
  {
  }

  /** Computation eligibility stated against the step occurrences
      themselves: the step is computable and each component either has a
      complete mapping or some occurrence under another symbol, which the
      helpers call equal to it, has one. */
  lemma ComputationEligibleIff(h: Helpers, manual: ManualLandmarks, allSteps: seq<Landmark>, step: Landmark)
    ensures IsEligibleForComputation(h, manual, allSteps, step) <==>
              && h.isComputable(step)
              && forall i :: 0 <= i < |step.components| ==>
                   || IsStepMappingComplete(h, manual, step.components[i])
                   || exists e :: e in allSteps && h.areEqualSteps(step.components[i], e) &&
                                  !h.areEqualSymbols(step.components[i], e) && IsStepMappingComplete(h, manual, e)
  {
  }

  /** The calculated value of a step: the helpers' calculation when the step
      is eligible for computation, otherwise none. */
  function CalculatedValue(h: Helpers, manual: ManualLandmarks, allSteps: seq<Landmark>, step: Landmark): (r: Option<EvaluatedValue>)
    ensures r.Some? ==> IsEligibleForComputation(h, manual, allSteps, step) && h.isComputable(step)
    ensures IsEligibleForComputation(h, manual, allSteps, step) ==> r == h.tryCalculate(step)
  {
    if IsEligibleForComputation(h, manual, allSteps, step) then h.tryCalculate(step) else None
  }

  /** A computable step's calculation is complete when it has a calculated
      value; a step without a calculation is always complete. */
  predicate IsStepCalculationComplete(h: Helpers, manual: ManualLandmarks, allSteps: seq<Landmark>, step: Landmark)
  {
    if h.isComputable(step) then CalculatedValue(h, manual, allSteps, step).Some? else true
  }

  /** A step is complete when both its mapping and its calculation are. */
  predicate IsStepComplete(h: Helpers, manual: ManualLandmarks, allSteps: seq<Landmark>, step: Landmark)
  {
    IsStepMappingComplete(h, manual, step) && IsStepCalculationComplete(h, manual, allSteps, step)
  }

  /** What completeness requires of each kind of step: a step that is
      neither mappable nor computable is complete outright; a complete
      computable step has a calculated value and so all its components are
      available; a complete mappable step has a mapped value. */
  lemma CompletenessRequirements(h: Helpers, manual: ManualLandmarks, allSteps: seq<Landmark>, step: Landmark)
    ensures !h.isMappable(step) && !h.isComputable(step) ==> IsStepComplete(h, manual, allSteps, step)
    ensures IsStepComplete(h, manual, allSteps, step) && h.isComputable(step) ==>
              CalculatedValue(h, manual, allSteps, step).Some? &&
              forall i :: 0 <= i < |step.components| ==> HasMappedEquivalent(h, manual, allSteps, step.components[i])
    ensures IsStepComplete(h, manual, allSteps, step) && h.isMappable(step) ==> MappedValue(h, manual, step).Some?
  {
  }

  // ---------------------------------------------------------------------------
  // Step states

  /** A step is skipped when its flag is set to true. */
  predicate IsStepSkipped(skipped: SkippedSteps, step: Landmark)
  {
    step.symbol in skipped && skipped[step.symbol]
  }

  /** Everything a step's state depends on besides the step. */
  datatype Inputs = Inputs(h: Helpers, manual: ManualLandmarks, skipped: SkippedSteps, allSteps: seq<Landmark>)

  /** A step's state, first match winning: the expected next landmark is
      current; else a complete step is done; else a skipped step is skipped;
      else it is pending. No step is ever evaluating. */
  function StateOfStep(inp: Inputs, next: Option<Landmark>, step: Landmark): (r: StepState)
    ensures r != Evaluating
    ensures r == Current <==> next.Some? && next.value.symbol == step.symbol
    ensures r == Done <==> r != Current && IsStepComplete(inp.h, inp.manual, inp.allSteps, step)
    ensures r == Skipped <==> r != Current && !IsStepComplete(inp.h, inp.manual, inp.allSteps, step) && IsStepSkipped(inp.skipped, step)
  {
    if next.Some? && next.value.symbol == step.symbol then Current
    else if IsStepComplete(inp.h, inp.manual, inp.allSteps, step) then Done
    else if IsStepSkipped(inp.skipped, step) then Skipped
    else Pending
  }

  /** The state of every step, keyed by symbol. */
  function StepStates(inp: Inputs, steps: seq<Landmark>): (r: map<string, StepState>)
    ensures forall i :: 0 <= i < |steps| ==> steps[i].symbol in r
    ensures forall k :: k in r ==> exists i :: 0 <= i < |steps| && steps[i].symbol == k
  {
    var bySymbol := Seqs.KeyBy(steps, SymbolOf);
    var next := ExpectedNextManualLandmark(inp.h, steps, inp.manual);
    map k | k in bySymbol :: StateOfStep(inp, next, bySymbol[k])
  }

  /** Only the expected next manual landmark is current: every symbol in the
      current state is the symbol of that landmark, which is a manual step,
      so at most one symbol is current; and it is current whenever there is
      a next landmark to place. */
  lemma OnlyExpectedLandmarkIsCurrent(inp: Inputs, steps: seq<Landmark>)
    ensures var states := StepStates(inp, steps);
            var next := ExpectedNextManualLandmark(inp.h, steps, inp.manual);
            forall k :: k in states && states[k] == Current ==>
              next.Some? && k == next.value.symbol && inp.h.isManual(next.value)
    ensures var states := StepStates(inp, steps);
            var next := ExpectedNextManualLandmark(inp.h, steps, inp.manual);
            next.Some? ==> next.value.symbol in states && states[next.value.symbol] == Current
  {
    var states := StepStates(inp, steps);
    var bySymbol := Seqs.KeyBy(steps, SymbolOf);
    var next := ExpectedNextManualLandmark(inp.h, steps, inp.manual);
    assert forall k :: k in states ==> states[k] == StateOfStep(inp, next, bySymbol[k]) && bySymbol[k].symbol == k;
    if next.Some? {
      var i :| 0 <= i < |steps| && steps[i] == next.value;
      assert SymbolOf(steps[i]) in bySymbol;
    }
  }

  /** At most one symbol is in the current state. */
  lemma AtMostOneCurrent(inp: Inputs, steps: seq<Landmark>)
    ensures var states := StepStates(inp, steps);
            forall k1, k2 :: k1 in states && k2 in states && states[k1] == Current && states[k2] == Current ==> k1 == k2
  {
    OnlyExpectedLandmarkIsCurrent(inp, steps);
  }

  /** Among steps that their symbols identify, each step's entry is its own state. */
  lemma StatesOfIdentifiedSteps(inp: Inputs, steps: seq<Landmark>)
    requires SymbolsIdentify(steps)
    ensures forall i :: 0 <= i < |steps| ==>
              StepStates(inp, steps)[steps[i].symbol] == StateOfStep(inp, ExpectedNextManualLandmark(inp.h, steps, inp.manual), steps[i])
  {
    var states := StepStates(inp, steps);
    var bySymbol := Seqs.KeyBy(steps, SymbolOf);
    var next := ExpectedNextManualLandmark(inp.h, steps, inp.manual);
    forall i | 0 <= i < |steps|
      ensures states[steps[i].symbol] == StateOfStep(inp, next, steps[i])
    {
      assert SymbolOf(steps[i]) in bySymbol;
      var k := steps[i].symbol;
      var j :| 0 <= j < |steps| && steps[j] == bySymbol[k];
      assert steps[j] == steps[i];
    }
  }

  // ---------------------------------------------------------------------------
  // Whole-analysis selectors

  /** The analysis is complete when one is active and every landmark it is
      composed of is complete. */
  predicate IsAnalysisComplete(h: Helpers, manual: ManualLandmarks, allSteps: seq<Landmark>, analysis: Option<Analysis>)
  {
    && analysis.Some?
    && forall i :: 0 <= i < |analysis.value.components| ==>
         IsStepComplete(h, manual, allSteps, analysis.value.components[i].landmark)
  }

  /** With an active analysis, completeness is exactly the completeness of
      every landmark its components wrap; without one it is never complete. */
  lemma AnalysisCompleteness(h: Helpers, manual: ManualLandmarks, allSteps: seq<Landmark>, analysis: Option<Analysis>)
    ensures analysis.None? ==> !IsAnalysisComplete(h, manual, allSteps, analysis)
    ensures analysis.Some? ==>
              (IsAnalysisComplete(h, manual, allSteps, analysis) <==>
               forall c :: c in analysis.value.components ==> IsStepComplete(h, manual, allSteps, c.landmark))
  {
    if analysis.Some? {
      var cs := analysis.value.components;
      assert (forall i :: 0 <= i < |cs| ==> IsStepComplete(h, manual, allSteps, cs[i].landmark)) <==>
             (forall c :: c in cs ==> IsStepComplete(h, manual, allSteps, c.landmark));
    }
  }

  /** The calculated value of each deduplicated step, keyed by symbol; when
      two steps share a symbol, the later one's value is kept. */
  function AllCalculatedValues(h: Helpers, manual: ManualLandmarks, steps: seq<Landmark>, allSteps: seq<Landmark>): (r: ValueMap)
    ensures forall i :: 0 <= i < |steps| ==> steps[i].symbol in r
    ensures forall k :: k in r ==> exists i :: 0 <= i < |steps| && steps[i].symbol == k && CalculatedValue(h, manual, allSteps, steps[i]) == r[k]
    ensures forall i :: 0 <= i < |steps| && (forall j :: i < j < |steps| ==> steps[j].symbol != steps[i].symbol) ==>
              r[steps[i].symbol] == CalculatedValue(h, manual, allSteps, steps[i])
  {
    var bySymbol := Seqs.KeyBy(steps, SymbolOf);
    map k | k in bySymbol :: CalculatedValue(h, manual, allSteps, bySymbol[k])
  }

  /** The mapped value of every step occurrence, keyed by symbol; when two
      occurrences share a symbol, the later one's value is kept. */
  function AllGeoObjects(h: Helpers, manual: ManualLandmarks, allSteps: seq<Landmark>): (r: ValueMap)
    ensures forall i :: 0 <= i < |allSteps| ==> allSteps[i].symbol in r
    ensures forall k :: k in r ==> exists i :: 0 <= i < |allSteps| && allSteps[i].symbol == k && MappedValue(h, manual, allSteps[i]) == r[k]
    ensures forall i :: 0 <= i < |allSteps| && (forall j :: i < j < |allSteps| ==> allSteps[j].symbol != allSteps[i].symbol) ==>
              r[allSteps[i].symbol] == MappedValue(h, manual, allSteps[i])
  {
    var bySymbol := Seqs.KeyBy(allSteps, SymbolOf);
    map k | k in bySymbol :: MappedValue(h, manual, bySymbol[k])
  }

  /** The interpretation of the active analysis; nothing without one. */
  function CategorizedAnalysisResults(h: Helpers, analysis: Option<Analysis>, values: ValueMap, objects: ValueMap): (r: seq<AnalysisResult>)
    ensures analysis.None? ==> r == []
    ensures analysis.Some? ==> r == h.interpret(analysis.value, values, objects)
  {
    if analysis.Some? then h.interpret(analysis.value, values, objects) else []
  }

  /** The summary can be shown when there is at least one result. */
  function CanShowSummary(results: seq<AnalysisResult>): (r: bool)
    ensures r <==> exists t :: t in results
  {
    assert |results| > 0 ==> results[0] in results;
    |results| > 0
  }

  // ---------------------------------------------------------------------------
  // One evaluation over a snapshot of the workspace

  /** What the host hands the engine: the selected analysis id and the
      manual and skipped maps of the active image. */
  datatype Snapshot = Snapshot(activeAnalysisId: Option<string>, manual: ManualLandmarks, skipped: SkippedSteps)

  /** Everything the selectors report for one snapshot. */
  datatype Report = Report(
    isAnalysisSet: bool,
    steps: seq<Landmark>,
    allSteps: seq<Landmark>,
    next: Option<Landmark>,
    states: map<string, StepState>,
    values: ValueMap,
    objects: ValueMap,
    isComplete: bool,
    results: seq<AnalysisResult>,
    canShowSummary: bool)

  function Evaluate(h: Helpers, registry: string -> Option<Analysis>, snap: Snapshot): (r: Result<Report, LookupError>)
    ensures r.Failure? <==> snap.activeAnalysisId.Some? && registry(snap.activeAnalysisId.value).None?
    ensures r.Success? ==> (r.value.canShowSummary <==> |r.value.results| > 0)
    ensures r.Success? ==> (r.value.isAnalysisSet <==> snap.activeAnalysisId.Some?)
  {
    match ActiveAnalysis(registry, snap.activeAnalysisId)
    case Failure(e) => Failure(e)
    case Success(analysis) =>
      var steps := ActiveAnalysisSteps(h, analysis);
      var allSteps := AllPossibleActiveAnalysisSteps(h, analysis);
      var inp := Inputs(h, snap.manual, snap.skipped, allSteps);
      var values := AllCalculatedValues(h, snap.manual, steps, allSteps);
      var objects := AllGeoObjects(h, snap.manual, allSteps);
      var results := CategorizedAnalysisResults(h, analysis, values, objects);
      Success(Report(
        IsAnalysisSet(snap.activeAnalysisId),
        steps,
        allSteps,
        ExpectedNextManualLandmark(h, steps, snap.manual),
        StepStates(inp, steps),
        values,
        objects,
        IsAnalysisComplete(h, snap.manual, allSteps, analysis),
        results,
        CanShowSummary(results)))
  }

  /** With a registered analysis selected, the report holds exactly what the
      selectors compute for it: its deduplicated steps and every occurrence,
      the next landmark to place, the states, calculated values and objects
      of those steps (one entry per step symbol), the analysis's
      interpretation of those values and objects, its completeness, and
      whether the summary can be shown. */
  lemma SelectedAnalysisReport(h: Helpers, registry: string -> Option<Analysis>, snap: Snapshot)
    requires snap.activeAnalysisId.Some? && registry(snap.activeAnalysisId.value).Some?
    ensures var a := registry(snap.activeAnalysisId.value).value;
            var r := Evaluate(h, registry, snap);
            && r.Success?
            && r.value.isAnalysisSet
            && r.value.steps == h.stepsForAnalysis(a, true)
            && r.value.allSteps == h.stepsForAnalysis(a, false)
            && r.value.next == ExpectedNextManualLandmark(h, r.value.steps, snap.manual)
            && r.value.states == StepStates(Inputs(h, snap.manual, snap.skipped, r.value.allSteps), r.value.steps)
            && r.value.values == AllCalculatedValues(h, snap.manual, r.value.steps, r.value.allSteps)
            && r.value.objects == AllGeoObjects(h, snap.manual, r.value.allSteps)
            && r.value.results == h.interpret(a, r.value.values, r.value.objects)
            && (r.value.isComplete <==>
                  forall c :: c in a.components ==> IsStepComplete(h, snap.manual, r.value.allSteps, c.landmark))
            && (r.value.canShowSummary <==> |r.value.results| > 0)
    ensures var r := Evaluate(h, registry, snap);
            && (forall i :: 0 <= i < |r.value.steps| ==> r.value.steps[i].symbol in r.value.states && r.value.steps[i].symbol in r.value.values)
            && (forall i :: 0 <= i < |r.value.allSteps| ==> r.value.allSteps[i].symbol in r.value.objects)
  {
    var a := registry(snap.activeAnalysisId.value).value;
    AnalysisCompleteness(h, snap.manual, h.stepsForAnalysis(a, false), Some(a));
  }

  /** With no analysis selected there is nothing to do: the analysis is not
      set, there are no steps, no states and no results, the analysis is not
      complete and the summary cannot be shown. */
  lemma NoAnalysisSelected(h: Helpers, registry: string -> Option<Analysis>, snap: Snapshot)
    requires snap.activeAnalysisId.None?
    ensures var r := Evaluate(h, registry, snap);
            && r.Success?
            && !r.value.isAnalysisSet
            && r.value.steps == [] && r.value.allSteps == []
            && r.value.next.None? && r.value.states == map[]
            && !r.value.isComplete
            && r.value.results == [] && !r.value.canShowSummary
  {
  }
}

=== FILE: seqs.dfy ===
/** The collection helpers the selectors are built from (lodash `find`,
    `filter` and `keyBy`), written once with their meaning as contracts. */
module Seqs {
  import opened Wrappers

  /** lodash `find`: the first element, in sequence order, that satisfies `p`.
      "First" is stated without indices: the result occurs at or before every
      position whose element satisfies `p`. */
  function Find<T(==)>(xs: seq<T>, p: T -> bool): (r: Option<T>)
    ensures r.Some? ==> r.value in xs && p(r.value)
    ensures r.None? <==> forall i :: 0 <= i < |xs| ==> !p(xs[i])
    ensures r.Some? ==> forall i :: 0 <= i < |xs| && p(xs[i]) ==> r.value in xs[..i + 1]
  {
    if |xs| == 0 then None
    else if p(xs[0]) then Some(xs[0])
    else
      var r := Find(xs[1..], p);
      assert forall i :: 1 <= i < |xs| ==> xs[i] == xs[1..][i - 1];
      assert r.Some? ==> forall i :: 0 <= i < |xs| && p(xs[i]) ==> r.value in xs[..i + 1] by {
        if r.Some? {
          forall i | 0 <= i < |xs| && p(xs[i])
            ensures r.value in xs[..i + 1]
          {
            assert i >= 1 && p(xs[1..][i - 1]);
            PrefixOfTail(xs, i, r.value);
          }
        }
      }
      r
  }

  /** An element among the first `i` elements of the tail is among the first
      `i + 1` elements of the whole sequence. */
  lemma PrefixOfTail<T>(xs: seq<T>, i: nat, x: T)
    requires 1 <= i < |xs| && x in xs[1..][..i]
    ensures x in xs[..i + 1]
  {
    var k :| 0 <= k < i && xs[1..][..i][k] == x;
    assert xs[..i + 1][k + 1] == x;
  }

  /** lodash `filter`: the elements satisfying `p`, in their original order.
      Multiplicity is stated by `FilterCounts`, order by `FilterConcat` and
      `FilterSingleton`, which together fix the result. */
  function Filter<T(==)>(xs: seq<T>, p: T -> bool): (r: seq<T>)
    ensures |r| <= |xs|
    ensures forall x :: x in r ==> x in xs && p(x)
    ensures forall x :: x in xs && p(x) ==> x in r
  {
    if |xs| == 0 then []
    else
      assert xs == [xs[0]] + xs[1..];
      if p(xs[0]) then [xs[0]] + Filter(xs[1..], p)
      else Filter(xs[1..], p)
  }

  /** Each element satisfying `p` is kept as often as it occurs in `xs`;
      no other element is kept. */
  lemma {:induction false} FilterCounts<T>(xs: seq<T>, p: T -> bool)
    ensures forall x :: x in xs ==> multiset(Filter(xs, p))[x] == if p(x) then multiset(xs)[x] else 0
    ensures forall x :: x !in xs ==> x !in multiset(Filter(xs, p))
  {
    if |xs| > 0 {
      FilterCounts(xs[1..], p);
      assert xs == [xs[0]] + xs[1..];
    }
  }

  /** Filtering a one-element sequence keeps the element exactly when it satisfies `p`. */
  lemma FilterSingleton<T>(x: T, p: T -> bool)
    ensures Filter([x], p) == if p(x) then [x] else []
  {
    assert [x][1..] == [];
  }

  /** Filtering commutes with concatenation, so the kept elements keep their
      relative order. */
  lemma {:induction false} FilterConcat<T>(xs: seq<T>, ys: seq<T>, p: T -> bool)
    ensures Filter(xs + ys, p) == Filter(xs, p) + Filter(ys, p)
  {
    if |xs| == 0 {
      assert xs + ys == ys;
    } else {
      assert (xs + ys)[0] == xs[0];
      assert (xs + ys)[1..] == xs[1..] + ys;
      FilterConcat(xs[1..], ys, p);
    }
  }

  /** The first kept element is the first element satisfying `p`. */
  lemma {:induction false} FilterFirst<T>(xs: seq<T>, p: T -> bool) returns (k: nat)
    requires |Filter(xs, p)| >= 1
    ensures k < |xs| && xs[k] == Filter(xs, p)[0] && p(xs[k])
    ensures forall m :: 0 <= m < k ==> !p(xs[m])
  {
    var tail := xs[1..];
    if p(xs[0]) {
      k := 0;
    } else {
      assert Filter(xs, p) == Filter(tail, p);
      var k' := FilterFirst(tail, p);
      k := k' + 1;
      assert forall m :: 1 <= m < k ==> xs[m] == tail[m - 1];
    }
  }

  /** The first two kept elements sit at positions `j < k` of `xs`, and every
      other position before `k` fails `p`. */
  lemma {:induction false} FilterFirstTwo<T>(xs: seq<T>, p: T -> bool) returns (j: nat, k: nat)
    requires |Filter(xs, p)| >= 2
    ensures j < k < |xs| && xs[j] == Filter(xs, p)[0] && xs[k] == Filter(xs, p)[1]
    ensures p(xs[j]) && p(xs[k])
    ensures forall m :: 0 <= m < k && m != j ==> !p(xs[m])
  {
    var tail := xs[1..];
    if p(xs[0]) {
      assert Filter(xs, p) == [xs[0]] + Filter(tail, p);
      var k' := FilterFirst(tail, p);
      j, k := 0, k' + 1;
      assert forall m :: 1 <= m < k ==> xs[m] == tail[m - 1];
    } else {
      assert Filter(xs, p) == Filter(tail, p);
      var j', k' := FilterFirstTwo(tail, p);
      j, k := j' + 1, k' + 1;
      assert forall m :: 1 <= m < k ==> xs[m] == tail[m - 1];
    }
  }

  /** At least two elements are kept exactly when two positions satisfy `p`. */
  lemma {:induction false} FilterKeepsTwo<T>(xs: seq<T>, p: T -> bool)
    ensures |Filter(xs, p)| >= 2 <==> exists j, k :: 0 <= j < k < |xs| && p(xs[j]) && p(xs[k])
  {
    if |Filter(xs, p)| >= 2 {
      var j, k := FilterFirstTwo(xs, p);
    }
    if exists j, k :: 0 <= j < k < |xs| && p(xs[j]) && p(xs[k]) {
      var j, k :| 0 <= j < k < |xs| && p(xs[j]) && p(xs[k]);
      KeptBoth(xs, p, j, k);
    }
  }

  lemma {:induction false} KeptBoth<T>(xs: seq<T>, p: T -> bool, j: nat, k: nat)
    requires j < k < |xs| && p(xs[j]) && p(xs[k])
    ensures |Filter(xs, p)| >= 2
  {
    var tail := xs[1..];
    assert xs[k] == tail[k - 1];
    assert xs[k] in tail;
    if j > 0 {
      assert xs[j] == tail[j - 1];
      if !p(xs[0]) {
        KeptBoth(tail, p, j - 1, k - 1);
      }
    }
  }

  /** Searching the filtered sequence for `q` finds the same element as
      searching the whole sequence for "`p` and `q`". */
  lemma {:induction false} FindAfterFilter<T>(xs: seq<T>, p: T -> bool, q: T -> bool, pq: T -> bool)
    requires forall x :: pq(x) == (p(x) && q(x))
    ensures Find(Filter(xs, p), q) == Find(xs, pq)
  {
    if |xs| > 0 {
      FindAfterFilter(xs[1..], p, q, pq);
      if p(xs[0]) {
        var f := [xs[0]] + Filter(xs[1..], p);
        assert f[1..] == Filter(xs[1..], p);
      }
    }
  }

  /** lodash `keyBy`: a map from each element's key to the element; when
      several elements share a key the last one wins. */
  function KeyBy<T(==), K(==)>(xs: seq<T>, key: T -> K): (r: map<K, T>)
    ensures forall i :: 0 <= i < |xs| ==> key(xs[i]) in r
    ensures forall k :: k in r ==> r[k] in xs && key(r[k]) == k
    ensures forall i :: 0 <= i < |xs| && (forall j :: i < j < |xs| ==> key(xs[j]) != key(xs[i])) ==>
              r[key(xs[i])] == xs[i]
  {
    if |xs| == 0 then map[]
    else
      var init := xs[..|xs| - 1];
      var last := xs[|xs| - 1];
      assert forall i :: 0 <= i < |xs| - 1 ==> xs[i] == init[i];
      KeyBy(init, key)[key(last) := last]
  }
}

=== FILE: wrappers.dfy ===
/** Optional and failure-carrying values, standing in for `undefined`/`null`
    and for thrown errors in the modelled code. */
module Wrappers {

  /** A value that may be absent (`undefined` or `null` in the source). */
  datatype Option<+T> = None | Some(value: T)

  /** A computation that either succeeds or fails with an error value. */
  datatype Result<+T, +E> = Success(value: T) | Failure(error: E)
}
